=== FILE: README.md ===
# Notion login bot: a Dafny model

This project models the core of a TypeScript bot that logs into Notion with a
visible Chromium window driven by Playwright and advised by a chat model:

- `launchBot` (the Notion login run) opens Notion with a saved session, stops
  early when the dashboard ("text=Quick Find") shows within five seconds,
  otherwise clicks the first login entry point that becomes visible, asks
  the model for the login selectors, fills in the email, optionally clicks
  `continue`, classifies how the page changed, fills in the password,
  submits, waits for the dashboard, saves the session and closes the browser
  (module `LoginTrial`);
- the `Navigator` wrapper around a Playwright page, whose every page
  operation first insists on a page, with the error "Browser not launched"
  (module `Navigator`);
- `getLoginPlanFromDOM` and `trimLoginDOM`: the page HTML cut down to its
  input, button and form elements and 6000 characters, and the model's
  reply cleaned of markdown fences and parsed, a failed parse being an error
  for the caller (modules `DomLoginPlanner`, and `TagScan` for the three
  global regular expressions);
- `askGPTVisionWhatToDo`: the open-tabs and recent-actions blocks of the
  prompt, and the reply cleaned and parsed, a failed parse becoming
  `{ action: 'done' }` (module `VisionPlanner`);
- the pieces of JavaScript string handling these rely on (`JsText`) and the
  values `JSON.parse` produces (`JsonValue`).

Every call into code outside the model (Playwright, the session store, the
chat model) is an `Effects.Call`. The outside world is a function from a
call, and the number of calls made before it, to its answer (a value or a
rejection), so a run is a trace of calls with their answers and an ending:
already logged in, logged in, or failed with an error. `JSON.parse` is a
parameter `parse: string -> Result<Json, string>`.

`askGPTVisionWhatToDo` turns only a reply that does not parse into
`{ action: 'done' }`. A reply that parses is returned whatever its shape,
with no check that it names an action (`VisionPlanner.ParsedValueReturned`).
A missing or blank reply becomes `"{}"`, and so an empty object rather than
`done` (`VisionPlanner.BlankReplyIsEmptyObject`).

## Model

| member | source | states |
|---|---|---|
| VisionPlanner.TabListing | llm/visionPlanner.ts:41 | the tabs block is empty exactly when no tab is open; TabListingNumbersByPosition and TabListingIgnoresStoredIndex state its lines |
| VisionPlanner.TabLines | llm/visionPlanner.ts:41 | one listing line per open tab, line i built from position i and that tab's title and URL |
| VisionPlanner.TabLineNumbered | llm/visionPlanner.ts:41 | the number a listing line announces after "Tab " reads back as the position it was built from |
| VisionPlanner.TabLineSingle | llm/visionPlanner.ts:41 | a tab with a single-line title and URL gives a single-line listing entry |
| VisionPlanner.TabListingNumbersByPosition | llm/visionPlanner.ts:41 | with single-line titles and URLs the tabs block splits into exactly one line per tab, and line i announces tab i |
| VisionPlanner.TabListingIgnoresStoredIndex | llm/visionPlanner.ts:41 | the `index` field a caller stores in a page record never reaches the prompt; only titles and URLs matter |
| VisionPlanner.ActionLine | llm/visionPlanner.ts:46 | a recent-action line is exactly "- action", then ` "selector"` only when the selector is non-empty, then " on tab N" whenever a tab is recorded (tab 0 included): all four combinations are stated in full |
| VisionPlanner.EmptySelectorOmitted | llm/visionPlanner.ts:46 | an empty selector is written exactly like a missing one |
| VisionPlanner.ActionLineTabReadable | llm/visionPlanner.ts:46 | the recorded tab, negative ones included, can be read back from the line's tail |
| VisionPlanner.ActionLineSingle | llm/visionPlanner.ts:46 | single-line action and selector give a single-line entry |
| VisionPlanner.ActionLines | llm/visionPlanner.ts:44-47 | one line per history entry, in history order |
| VisionPlanner.RecentActions | llm/visionPlanner.ts:44-47 | the recent-actions block is empty exactly when the history is; RecentActionsLines, RecentActionsForgetOlder and ShortHistoryShownWhole state its lines |
| VisionPlanner.RecentActionsForgetOlder | llm/visionPlanner.ts:44-45 | entries older than the last three never reach the block |
| VisionPlanner.ShortHistoryShownWhole | llm/visionPlanner.ts:44-47 | a history of at most three entries is shown whole, in order |
| VisionPlanner.RecentActionsLines | llm/visionPlanner.ts:44-47 | the block has min(3, n) lines, line k being the k-th of the last three entries |
| VisionPlanner.ReplyOrDefault | llm/visionPlanner.ts:117 | a missing, empty or all-whitespace reply becomes "{}", any other reply its trimmed text |
| VisionPlanner.OpeningFence | llm/visionPlanner.ts:120 | the opening fence removed is nothing without a leading ```; else ```, then "json" in any case whenever it follows (and only then), then one newline whenever it follows (and only then) |
| Fences.Unwrap | llm/visionPlanner.ts:120 | after the opening fence is dropped, the cleaned text is the rest of the reply, less one closing ``` exactly when the rest ends with one (the same pair of calls is at llm/domLoginPlanner.ts:50) |
| VisionPlanner.StripJsonFence | llm/visionPlanner.ts:120 | a reply fenced as ```json (any case) and a newline is unwrapped to exactly its inner text |
| VisionPlanner.StripJsonFenceInline | llm/visionPlanner.ts:120 | a ```json fence (any case) with no newline after the tag is unwrapped to exactly its inner text |
| VisionPlanner.StripOtherTag | llm/visionPlanner.ts:120 | a fence whose tag does not begin with "json" in any case keeps its tag: only the backticks go |
| VisionPlanner.StripJsonPrefixedTag | llm/visionPlanner.ts:120 | a tag that begins with "json" but goes on ("jsonc") loses only those four letters, keeping the rest of the tag |
| VisionPlanner.StripBareFence | llm/visionPlanner.ts:120 | a bare ``` fence with a newline is unwrapped exactly |
| VisionPlanner.StripFences | llm/visionPlanner.ts:120 | a reply that does not open with ``` is kept whole, less one closing ``` at its very end; the fenced cases are the four lemmas above |
| VisionPlanner.CleanReply | llm/visionPlanner.ts:117-120 | a missing or all-whitespace reply reaches JSON.parse as "{}" |
| VisionPlanner.Decide | llm/visionPlanner.ts:122-127 | the decision is the parsed reply, or `{ action: 'done' }`; nothing is thrown |
| VisionPlanner.ParseFailureMeansDone | llm/visionPlanner.ts:124-127 | every parse failure gives `{ action: 'done' }` |
| VisionPlanner.ParsedValueReturned | llm/visionPlanner.ts:122-123 | any parsed value comes back unchanged, whatever its shape |
| VisionPlanner.FencedReplyUnwrapped | llm/visionPlanner.ts:117-123 | a whole ```json-fenced reply reaches JSON.parse as its inner text |
| VisionPlanner.BlankReplyIsEmptyObject | llm/visionPlanner.ts:117-123 | a missing or blank reply gives the empty object, not `done` |
| DomLoginPlanner.TrimLoginDom | llm/domLoginPlanner.ts:65-78 | the prompt HTML is a prefix of the newline-joined fragments: all of them when they fit in 6000 characters, otherwise exactly their first 6000 |
| DomLoginPlanner.LoginFragments | llm/domLoginPlanner.ts:67-74 | one fragment per match of the three expressions, none of them empty; FragmentsInOrder states their order |
| DomLoginPlanner.NoLoginElementsNoText | llm/domLoginPlanner.ts:67-75 | HTML where none of the three expressions matches gives empty prompt HTML |
| DomLoginPlanner.InputFragmentsAreTags | llm/domLoginPlanner.ts:67 | every input fragment is "<input" through the first '>' after it |
| DomLoginPlanner.InputFragmentIsTag | llm/domLoginPlanner.ts:67 | one input match is that text, inside the HTML |
| DomLoginPlanner.FragmentsInOrder | llm/domLoginPlanner.ts:67-74 | the fragments are all inputs, then all buttons, then all forms, each kind in document order without overlap |
| DomLoginPlanner.ReplyText | llm/domLoginPlanner.ts:47-50 | only a missing or empty reply becomes "{}"; any other reply is trimmed, so a blank one becomes "" |
| DomLoginPlanner.LetterRunEnd | llm/domLoginPlanner.ts:50 | the language tag read after the fence is the maximal run of ASCII letters, either case |
| DomLoginPlanner.OpeningFence | llm/domLoginPlanner.ts:50 | the opening fence removed is nothing without a leading ```; else ```, then the whole run of ASCII letters after it, then one newline whenever it follows (and only then) |
| DomLoginPlanner.StripTaggedFence | llm/domLoginPlanner.ts:50 | a reply fenced with any letters-only tag and a newline is unwrapped to exactly its inner text |
| DomLoginPlanner.StripTaggedFenceInline | llm/domLoginPlanner.ts:50 | a letters-only tag with no newline after it is removed too, when the inner text does not start with a letter |
| DomLoginPlanner.StripFences | llm/domLoginPlanner.ts:50 | a reply that does not open with ``` is kept whole, less one closing ``` at its very end; the fenced cases are StripTaggedFence and StripTaggedFenceInline |
| DomLoginPlanner.CleanReply | llm/domLoginPlanner.ts:47-50 | a missing or empty reply reaches JSON.parse as "{}", a non-empty all-whitespace one as "" |
| DomLoginPlanner.PlanFromReply | llm/domLoginPlanner.ts:52-57 | the plan is what JSON.parse makes of the cleaned reply, and its error, unchanged, when it fails |
| DomLoginPlanner.MissingLikeEmpty | llm/domLoginPlanner.ts:47 | a missing reply and an empty one give the same plan, whatever JSON.parse does |
| DomLoginPlanner.SameTextSamePlan | llm/domLoginPlanner.ts:50-53 | the plan depends on the reply only through its cleaned text |
| DomLoginPlanner.BlankReplyDiffers | llm/domLoginPlanner.ts:47-50 | a blank reply reaches this parser as "" but the vision parser as "{}" |
| DomLoginPlanner.HtmlFenceDiffers | llm/domLoginPlanner.ts:50 | an html-tagged fence is removed here but kept, tag and all, by the vision planner |
| TagScan.FindChar | llm/domLoginPlanner.ts:67 | the first position from a start holding a character, or none |
| TagScan.FindText | llm/domLoginPlanner.ts:68-69 | the first position from a start where a closing tag occurs, or none (the lazy `.*?`) |
| TagScan.MatchAt | llm/domLoginPlanner.ts:67-69 | a match at a position starts with the opening text and ends beyond it, inside the text |
| TagScan.At | llm/domLoginPlanner.ts:67-69 | every match the expression makes ends after its start and within the text |
| TagScan.ScanWith | llm/domLoginPlanner.ts:67-69 | the global search meets its specification: each span a match found at the first matching position after the previous one, none left after the last |
| TagScan.GlobalMatchesUnique | llm/domLoginPlanner.ts:67-69 | the specification of the global search has exactly one solution, the search's own result |
| TagScan.GlobalMatchesChained | llm/domLoginPlanner.ts:67-69 | matches are non-empty and each starts after the previous one ends |
| TagScan.Scan | llm/domLoginPlanner.ts:67-69 | `match` with the g flag returns spans each of which is a match of the expression |
| TagScan.ScanInDocumentOrder | llm/domLoginPlanner.ts:67-69 | matches come out in document order and never overlap |
| TagScan.NoMatchMeansEmpty | llm/domLoginPlanner.ts:67-69 | the search finds nothing exactly when the expression matches at no position |
| TagScan.Matches | llm/domLoginPlanner.ts:67-69 | the matched strings are the texts of the search's spans, in order |
| TagScan.InputMatchShape | llm/domLoginPlanner.ts:67 | an input match is "<input", then no '>', then '>' |
| TagScan.InputMatchFound | llm/domLoginPlanner.ts:67 | wherever "<input" is followed by a '>', the expression matches |
| TagScan.ButtonMatchShape | llm/domLoginPlanner.ts:68 | a button match ends at the first "</button>" after its opening tag, with no line break in between |
| TagScan.FormMatchShape | llm/domLoginPlanner.ts:69 | a form match ends at the first "</form>" after its opening tag, line breaks allowed |
| TagScan.FormSpansLines | llm/domLoginPlanner.ts:69 | a form whose body crosses lines still matches, through its closing tag |
| TagScan.ButtonStopsAtLineBreak | llm/domLoginPlanner.ts:68 | a button whose body crosses a line is not matched |
| JsText.Trim | llm/visionPlanner.ts:117 | trim gives trimmed text, empty exactly when the input is all whitespace |
| JsText.TrimIsMiddle | llm/visionPlanner.ts:117 | what trim keeps is one slice of the input with only whitespace around it |
| JsText.TrimOfPadded | llm/domLoginPlanner.ts:50 | whitespace, trimmed text, whitespace trims to exactly the middle |
| JsText.TrimIdempotent | llm/domLoginPlanner.ts:50 | trimming twice is trimming once |
| JsText.Prefix | llm/domLoginPlanner.ts:75 | slice(0, n) is a prefix of at most n characters, the whole text when it fits |
| JsText.LastN | llm/visionPlanner.ts:45 | slice(-n) is the last n elements, or all when there are fewer |
| JsText.NatToString | llm/visionPlanner.ts:41 | the decimal form has at least one digit and no leading zero |
| JsText.NatToStringRoundTrip | llm/visionPlanner.ts:41 | reading the decimal form back gives the number |
| JsText.NatToStringInjective | llm/visionPlanner.ts:41 | distinct numbers are written differently |
| JsText.IntToString | llm/visionPlanner.ts:46 | an integer's decimal form starts with '-' exactly when it is negative |
| JsText.IntToStringRoundTrip | llm/visionPlanner.ts:46 | reading an integer's decimal form back gives the integer |
| JsText.Join | llm/domLoginPlanner.ts:74 | join of nothing is "", of one piece that piece |
| JsText.JoinSplit | llm/visionPlanner.ts:41 | splitting on a character and joining with it restores the text |
| JsText.SplitJoin | llm/visionPlanner.ts:41 | joining pieces free of the separator and splitting recovers the pieces |
| JsonValue.Lookup | llm/visionPlanner.ts:123 | the value JSON.parse keeps for a key is that of its last occurrence, or none when absent |
| JsonValue.Property | notionBotDomTrial.ts:60 | reading a property throws exactly on null; for the four plan keys the bot reads (email, password, submit, continue) it yields a value only from an object, the last occurrence of the key |
| Navigator.Settle | browser/navigator.ts:21 | an awaited call resolves exactly when its answer is a value, and rethrows its error |
| Navigator.SetPage | browser/navigator.ts:7-10 | setPage holds the given page and leaves the browser handle alone |
| Navigator.Launch | browser/navigator.ts:12-17 | launch holds the browser as soon as chromium starts, so a failed newContext or newPage leaves a browser without a new page |
| Navigator.NavigateTo | browser/navigator.ts:19-23 | navigateTo is one goto call behind the guard, resolving as it does |
| Navigator.Click | browser/navigator.ts:25-30 | click waits for visibility and clicks only if the wait resolved; its only page action is that click |
| Navigator.Type | browser/navigator.ts:32-36 | type is one fill behind the guard |
| Navigator.GetPageContent | browser/navigator.ts:38-41 | getPageContent is one content read behind the guard, returning the HTML |
| Navigator.WaitForSelector | browser/navigator.ts:43-47 | waitForSelector passes its options on as given, behind the guard |
| Navigator.Close | browser/navigator.ts:49-56 | close acts only with a browser held, dropping both handles once the close resolved |
| Navigator.CloseIdempotent | browser/navigator.ts:49-56 | after a close that went through, closing again does nothing |
| Navigator.SetPageSurvivesClose | browser/navigator.ts:49-56 | a Navigator given its page by setPage holds no browser, so close keeps the page usable |
| Navigator.FreshNavigatorRefuses | browser/navigator.ts:19-47 | every page operation of a new Navigator fails with "Browser not launched" |
| Navigator.LaunchThenClose | browser/navigator.ts:12-56 | after launch the guard lets page operations through, after close it refuses them again |
| Navigator.ClickWaitRejected | browser/navigator.ts:25-30 | a click whose wait rejects makes no click and fails with the wait's error |
| Navigator.ClickWentThrough | browser/navigator.ts:25-30 | a click whose wait and click resolve makes exactly those two calls |
| LoginTrial.Start | notionBotDomTrial.ts:21-30 | the opening goes on exactly when launch, loadSession, newPage and goto all resolve, with the page set through setPage and no browser handle |
| LoginTrial.SessionCheck | notionBotDomTrial.ts:33-40 | the run stops, already logged in, exactly when the dashboard wait and the close both resolve |
| LoginTrial.SessionCheckMissing | notionBotDomTrial.ts:38-40 | a dashboard that does not show is swallowed and the run goes on after the wait |
| LoginTrial.SessionCheckCloseRejected | notionBotDomTrial.ts:36-40 | a close that rejects inside the same try block is swallowed too, and the login goes ahead |
| LoginTrial.Opening | notionBotDomTrial.ts:21-40 | the opening either ends the run, logged in or failed, or goes on with the page set and no page actions |
| LoginTrial.SessionFoundEndsRun | notionBotDomTrial.ts:33-37 | when all six opening calls resolve, the run ends there, logged in, with exactly those calls |
| LoginTrial.OnlySessionFoundEndsRun | notionBotDomTrial.ts:33-40 | a run ends logged in already only when all six opening calls resolve |
| LoginTrial.OpeningWithoutDashboard | notionBotDomTrial.ts:21-40 | without the dashboard the run goes on after the four opening calls and the wait |
| LoginTrial.CloseRejectionProceeds | notionBotDomTrial.ts:33-40 | a run whose close rejects goes on to log in after the same six calls |
| LoginTrial.TryTriggers | notionBotDomTrial.ts:45-54 | the loop makes at most one attempt per trigger; TriggerOutcomes, TriggerAttempts and TriggerPositions state which |
| LoginTrial.TriggerOutcomes | notionBotDomTrial.ts:45-54 | the trigger loop tries at least one trigger, every attempt but the last failed, and it stops early only on a click that went through |
| LoginTrial.TriggerAttempts | notionBotDomTrial.ts:45-48 | attempt k clicks trigger k |
| LoginTrial.TriggerPositions | notionBotDomTrial.ts:45-54 | the first attempt starts where the loop does, each next one right after the calls of the one before |
| LoginTrial.TriggerPhase | notionBotDomTrial.ts:43-54 | the trigger loop never ends the run: the page and change are kept, and the attempts' calls appended |
| LoginTrial.TriggerActs | notionBotDomTrial.ts:43-54 | the loop acts on the page only by clicking triggers |
| LoginTrial.WaitsRejected | notionBotDomTrial.ts:45-54 | when no trigger becomes visible, the loop waits for each in turn and clicks nothing |
| LoginTrial.TriggerLoopStarts | notionBotDomTrial.ts:43-48 | the loop starts by waiting for "text=Log in" to be visible |
| LoginTrial.FirstTriggerClicked | notionBotDomTrial.ts:48-50 | a first trigger that is clicked stops the loop: no other trigger is tried |
| LoginTrial.PlanPhase | notionBotDomTrial.ts:57-58 | the page is read, the model asked about it, and the run goes on exactly with the plan read from the reply, or stops with the read's error; a run that goes on gained exactly those two calls, whose answers give the plan |
| LoginTrial.SelectorOf | notionBotDomTrial.ts:60 | a plan field is used as a selector only when the plan is an object holding a string there; a null plan throws the property-read TypeError |
| LoginTrial.ContinueChoice | notionBotDomTrial.ts:73-75 | `continue` is clicked only when truthy, and must then be a selector |
| LoginTrial.ReadSelectors | notionBotDomTrial.ts:70-93 | a plan gives selectors exactly when email, password and submit are strings and a truthy continue is one |
| LoginTrial.Look | notionBotDomTrial.ts:66-67 | noting the page is exactly a URL read and then a content read, and the pair it returns is those two answers |
| LoginTrial.Before | notionBotDomTrial.ts:60-67 | the email input is described, then the URL and HTML read; the trace grows by exactly those three calls, the pair kept is exactly the answers of the two reads, and no page action is made |
| LoginTrial.FillField | notionBotDomTrial.ts:70-71 | a field is clicked, then filled, and nothing else |
| LoginTrial.ClickStep | notionBotDomTrial.ts:74 | a click in the run adds exactly that click |
| LoginTrial.TypeStep | notionBotDomTrial.ts:71 | a fill in the run adds exactly that fill |
| LoginTrial.ContinueAndPause | notionBotDomTrial.ts:73-78 | `continue` is clicked when given, then the run pauses two seconds |
| LoginTrial.EmailStep | notionBotDomTrial.ts:70-78 | the email step's page actions are exactly its script |
| LoginTrial.Classify | notionBotDomTrial.ts:82-88 | a new URL wins, else new HTML, else no visible change, each exactly in its case |
| LoginTrial.Observe | notionBotDomTrial.ts:78-88 | the page change recorded is the classification of the URL and HTML seen before and of the answers of the URL and content reads it appends |
| LoginTrial.PasswordStep | notionBotDomTrial.ts:91-93 | the password step's page actions are click and fill password, then click submit |
| LoginTrial.Finish | notionBotDomTrial.ts:96-102 | the run ends logged in exactly when the dashboard wait, saveSession and close resolve, with exactly those calls |
| LoginTrial.EmailTail | notionBotDomTrial.ts:60-75 | the email selector and the continue choice are read from the plan; when the step goes through, the page actions it adds to the trace are exactly the email script for them |
| LoginTrial.EmailHalf | notionBotDomTrial.ts:60-78 | a null plan fails at once with the TypeError; otherwise the pair kept is the answers of the URL and content reads recorded right after the email input is described, and the page actions recorded after those reads are exactly the email script for the plan's selectors |
| LoginTrial.PasswordHalf | notionBotDomTrial.ts:78-102 | the page sees exactly the password script, and the change recorded classifies the pair seen before against the URL and content reads recorded first in the trace |
| LoginTrial.LooksJudged | notionBotDomTrial.ts:66-88 | a look recorded in one trace and a later look recorded in its extension, with exactly the given page actions after the first, are a judged pair of looks of the extension with exactly those actions between them |
| LoginTrial.LoginPhase | notionBotDomTrial.ts:60-102 | a login that goes through read every selector of the plan, the page saw exactly the login script for them, and the change recorded classifies two URL-and-content reads of the trace: the first right after the email input is described, the second after exactly the email script for those selectors |
| LoginTrial.SelectorsFromReply | notionBotDomTrial.ts:57-93 | a reply gives selectors exactly when the planner reads it as a plan that gives selectors, and they are that plan's |
| LoginTrial.PlanThenLooks | notionBotDomTrial.ts:57-88 | the page read and model call that gave the plan, followed by looks around exactly the email script for its selectors, make a judged login in any extension of the trace |
| LoginTrial.PlanAndLogin | notionBotDomTrial.ts:57-102 | a login that goes through keeps the trace it was given as a prefix and read its selectors from the model's reply about the page; the page saw exactly the login script for them, and its change classifies the looks around exactly the email script |
| LoginTrial.Login | notionBotDomTrial.ts:43-102 | a run that logs in begins with exactly the trace of the trigger loop, tried in order and stopped at the first click; it read its selectors from the model's reply about the page it read, clicks only triggers, then exactly the login script for those selectors; its change classifies the look before the email against the look after exactly the email script |
| LoginTrial.Bot | notionBotDomTrial.ts:20-103 | the run ends logged in already exactly when the six opening calls resolve, with no page action; a login begins with the opening's calls and then the trigger loop's, reads its selectors from the reply of the DOM planner, its actions are trigger clicks then the login script for them, and its change classifies the looks around exactly the email script |
| LoginTrial.LaunchBot | notionBotDomTrial.ts:12-103 | missing credentials fail before any call; already logged in exactly when credentials are set and the session is found; a login's trace begins with the opening's calls and then the trigger loop's, its selectors are those read from the DOM planner's reply recorded in the trace, its actions are trigger clicks then the login script for them, and its change classifies the looks around exactly the email script |

## Left out

- The chat model, its client and the prompt wording are outside the model. The model request records only the trimmed HTML it is built from. The model's answer comes from the world.
- The screenshot and its base64 encoding in `askGPTVisionWhatToDo` are left out. They only feed the model call.
- Playwright's own behaviour is not modelled. This covers selector resolution, visibility, timeouts and page loading. Each call's answer comes from the world.
- `sessionManager.ts` is not part of this model. `loadSession` and `saveSession` are single calls whose answers come from the world.
- `notionBot.ts`, `utils/utils.ts` and the test scripts in `llm/` are not part of this model.
- Logging to the console is left out. It has no effect on the run.
- The `site` argument of `getLoginPlanFromDOM` is left out. The function never reads it.
- `describeInput`, `getCurrentURL` and `wait` are outside calls whose answers come from the world, because the `Navigator` class shown defines none of them.
- LoginTrial.SelectorOf: a plan field that is missing (as in the `{}` of a blank reply) or not a string, or a plan that is not an object (`[]`, `5`), ends the run with its own error and no browser call. The code would hand that value, often `undefined`, to Playwright, whose reaction is outside this model.
- VisionPlanner.ActionLine: tab indexes are taken to be integers. JavaScript's template literal would print a fractional, huge or non-numeric index in its own way (`1.5`, `1e+21`, `NaN`), which the model does not cover.
- DomLoginPlanner.TrimLoginDom: the 6000-character cut counts Unicode scalar values, where JavaScript counts UTF-16 code units. The two differ only for characters outside the Basic Multilingual Plane.
- LoginTrial.Login: for a run that fails, the contract does not say which page actions were made before the failure. It also states the trigger-clicks-then-script shape only for a run with no page actions before it, which is how `Bot` calls it.
- LoginTrial.FillField: the page actions are stated for a step that goes through, not for one that stops part way.
- LoginTrial.ClickStep: the page actions are stated for a step that goes through, not for one that stops part way.
- LoginTrial.TypeStep: the page actions are stated for a step that goes through, not for one that stops part way.
- LoginTrial.ContinueAndPause: the page actions are stated for a step that goes through, not for one that stops part way.
- LoginTrial.EmailStep: the page actions are stated for a step that goes through, not for one that stops part way.
- LoginTrial.EmailTail: the page actions are stated for a step that goes through, not for one that stops part way.
- LoginTrial.EmailHalf: the page actions are stated for a step that goes through, not for one that stops part way.
- LoginTrial.PasswordStep: the page actions are stated for a step that goes through, not for one that stops part way.
- LoginTrial.PasswordHalf: the page actions are stated for a step that goes through, not for one that stops part way.
- LoginTrial.LoginPhase: the page actions are stated for a step that goes through, not for one that stops part way.
- LoginTrial.PlanAndLogin: the page actions are stated for a step that goes through, not for one that stops part way.
- LoginTrial.PasswordHalf: the contract does not repeat the exact calls of the observation and the finish. Observe and Finish state those.
- LoginTrial.Login takes any `Planner`, a pair of a prompt builder and a reply reader. `Bot` passes the one built from `trimLoginDOM` and the reply parsing of `getLoginPlanFromDOM`.
- A step that throws ends the run as failed with its error. As in the code, the browser is then left open, and nothing after that point is modelled.
- The `GPTAction` type is not checked anywhere in the code. The model keeps the parsed reply as a JSON value.

=== FILE: dom_login_planner.dfy ===
/** getLoginPlanFromDOM and trimLoginDOM: the page HTML cut down to its input,
    button and form elements for the prompt, and the model's reply cleaned and
    parsed into a login plan. A reply that does not parse is an error for the
    caller; there is no default plan. */
module DomLoginPlanner {
  import opened Wrappers
  import opened JsText
  import opened JsonValue
  import opened Fences
  import opened TagScan
  import VisionPlanner

  /** The most HTML characters placed in the prompt */
  const MaxPromptHtml: nat := 6000

  /** All input tags, then all buttons, then all forms, each group in document order */
  function LoginFragments(html: string): (r: seq<string>)
    ensures |r| == |Scan(html, InputTag)| + |Scan(html, ButtonTag)| + |Scan(html, FormTag)|
    ensures NoneEmpty(r)
  {
    var ins, bts, fms := Matches(html, InputTag), Matches(html, ButtonTag), Matches(html, FormTag);
    MatchesNonEmpty(html, InputTag);
    MatchesNonEmpty(html, ButtonTag);
    MatchesNonEmpty(html, FormTag);
    NoneEmptyConcat(ins, bts);
    NoneEmptyConcat(ins + bts, fms);
    ins + bts + fms
  }

  predicate NoneEmpty(xs: seq<string>) {
    forall k :: 0 <= k < |xs| ==> xs[k] != ""
  }

  /** A match always takes at least one character */
  lemma MatchesNonEmpty(s: string, pat: Pattern)
    ensures NoneEmpty(Matches(s, pat))
  {
    var r := Matches(s, pat);
    var spans := Scan(s, pat);
    forall k | 0 <= k < |r|
      ensures r[k] != ""
    {
      assert |r[k]| == spans[k].end - spans[k].start;
    }
  }

  lemma NoneEmptyConcat(a: seq<string>, b: seq<string>)
    requires NoneEmpty(a) && NoneEmpty(b)
    ensures NoneEmpty(a + b)
  {
    forall k | 0 <= k < |a + b|
      ensures (a + b)[k] != ""
    {
      if k < |a| {
        assert (a + b)[k] == a[k];
      } else {
        assert (a + b)[k] == b[k - |a|];
      }
    }
  }

  /** trimLoginDOM: the fragments joined by newlines, cut to 6000 characters */
  function TrimLoginDom(html: string): (r: string)
    ensures |r| <= MaxPromptHtml
    ensures r <= Join(LoginFragments(html), "\n")
    ensures |Join(LoginFragments(html), "\n")| <= MaxPromptHtml ==> r == Join(LoginFragments(html), "\n")
    ensures |Join(LoginFragments(html), "\n")| > MaxPromptHtml ==> |r| == MaxPromptHtml
  {
    Prefix(Join(LoginFragments(html), "\n"), MaxPromptHtml)
  }

  /** HTML with no input, button or form element gives empty text */
  lemma NoLoginElementsNoText(html: string)
    requires forall p :: 0 <= p < |html| ==> MatchAt(html, InputTag, p).None?
    requires forall p :: 0 <= p < |html| ==> MatchAt(html, ButtonTag, p).None?
    requires forall p :: 0 <= p < |html| ==> MatchAt(html, FormTag, p).None?
    ensures TrimLoginDom(html) == ""
  {
    NoMatchMeansEmpty(html, InputTag);
    NoMatchMeansEmpty(html, ButtonTag);
    NoMatchMeansEmpty(html, FormTag);
  }

  /** Every input fragment is "<input" up to and including the first '>' after it */
  lemma InputFragmentsAreTags(html: string)
    ensures var ms := Matches(html, InputTag);
      forall k :: 0 <= k < |ms| ==> InputTagText(ms[k])
  {
    var ms := Matches(html, InputTag);
    var spans := Scan(html, InputTag);
    forall k | 0 <= k < |ms|
      ensures InputTagText(ms[k])
    {
      InputFragmentIsTag(html, spans[k].start, spans[k].end);
    }
  }

  /** "<input", no '>' until the last character, which is '>' */
  predicate InputTagText(f: string) {
    StartsWith(f, "<input") && f[|f| - 1] == '>' && forall j :: 0 <= j < |f| - 1 ==> f[j] != '>'
  }

  lemma InputFragmentIsTag(html: string, i: nat, e: nat)
    requires MatchAt(html, InputTag, i) == Some(e)
    ensures i < e <= |html| && InputTagText(html[i..e])
  {
    InputMatchShape(html, i, e);
    var f := html[i..e];
    assert f[|f| - 1] == html[e - 1];
    forall j | 0 <= j < |f| - 1
      ensures f[j] != '>'
    {
      assert f[j] == html[i + j];
    }
  }

  /** The fragments come grouped by kind, and within a kind in the order
      their elements start in the document, without overlap */
  lemma FragmentsInOrder(html: string)
    ensures var ins := Matches(html, InputTag);
      var bts := Matches(html, ButtonTag);
      LoginFragments(html)[..|ins|] == ins
      && LoginFragments(html)[|ins|..|ins| + |bts|] == bts
      && LoginFragments(html)[|ins| + |bts|..] == Matches(html, FormTag)
    ensures forall j, k :: 0 <= j < k < |Scan(html, InputTag)| ==>
      Scan(html, InputTag)[j].end <= Scan(html, InputTag)[k].start
    ensures forall j, k :: 0 <= j < k < |Scan(html, ButtonTag)| ==>
      Scan(html, ButtonTag)[j].end <= Scan(html, ButtonTag)[k].start
    ensures forall j, k :: 0 <= j < k < |Scan(html, FormTag)| ==>
      Scan(html, FormTag)[j].end <= Scan(html, FormTag)[k].start
  {
    ScanInDocumentOrder(html, InputTag);
    ScanInDocumentOrder(html, ButtonTag);
    ScanInDocumentOrder(html, FormTag);
  }

  // ----- the reply -----

  /** `content || '{}'`, then trim: only a missing or empty reply becomes "{}";
      an all-whitespace reply trims to "" */
  function ReplyText(content: Option<string>): (r: string)
    ensures Trimmed(r)
    ensures content.None? || content.value == "" ==> r == "{}"
    ensures content.Some? && content.value != "" ==> r == Trim(content.value)
  {
    var raw := if content.None? || content.value == "" then "{}" else content.value;
    assert raw == "{}" ==> [] + raw + [] == raw;
    TrimOfPadded([], "{}", []);
    Trim(raw)
  }

  predicate IsAsciiLetter(c: char) {
    ('a' <= c <= 'z') || ('A' <= c <= 'Z')
  }

  /** The end of the run of ASCII letters that starts at `from` */
  function LetterRunEnd(s: string, from: nat): (e: nat)
    requires from <= |s|
    ensures from <= e <= |s|
    ensures forall k :: from <= k < e ==> IsAsciiLetter(s[k])
    ensures e == |s| || !IsAsciiLetter(s[e])
    decreases |s| - from
  {
    if from < |s| && IsAsciiLetter(s[from]) then LetterRunEnd(s, from + 1) else from
  }

  lemma {:induction false} LetterRunEndOf(s: string, from: nat, tag: string)
    requires from + |tag| <= |s| && s[from..from + |tag|] == tag
    requires forall k :: 0 <= k < |tag| ==> IsAsciiLetter(tag[k])
    requires from + |tag| == |s| || !IsAsciiLetter(s[from + |tag|])
    ensures LetterRunEnd(s, from) == from + |tag|
    decreases |tag|
  {
    if |tag| > 0 {
      assert s[from] == tag[0];
      assert s[from + 1..from + 1 + |tag[1..]|] == tag[1..];
      LetterRunEndOf(s, from + 1, tag[1..]);
    }
  }

  /** The length of the text `^```[a-z]*\n?` matches case-insensitively: the
      fence, every letter after it, and one newline if one follows */
  function OpeningFence(s: string): (k: nat)
    ensures k <= |s|
    ensures k == 0 <==> !StartsWith(s, Fence)
    ensures k != 0 ==> s[..3] == Fence && forall j :: 3 <= j < k - 1 ==> IsAsciiLetter(s[j])
    ensures StartsWith(s, Fence) ==>
      var e := LetterRunEnd(s, 3);
      (k == e && (e == |s| || s[e] != '\n')) || (k == e + 1 && s[e] == '\n')
  {
    if !StartsWith(s, Fence) then 0
    else
      var e := LetterRunEnd(s, 3);
      if e < |s| && s[e] == '\n' then e + 1 else e
  }

  /** The two replace calls, with this planner's opening fence; it differs
      from VisionPlanner.StripFences only through `OpeningFence` */
  function StripFences(s: string): (r: string)
    ensures !StartsWith(s, Fence) && !EndsWith(s, Fence) ==> r == s
    ensures !StartsWith(s, Fence) && EndsWith(s, Fence) ==> r == s[..|s| - 3]
  {
    assert !StartsWith(s, Fence) ==> s[0..] == s;
    Unwrap(s, OpeningFence(s))
  }

  /** A reply fenced with any letters-only language tag and a newline is
      unwrapped exactly */
  lemma StripTaggedFence(tag: string, x: string)
    requires forall k :: 0 <= k < |tag| ==> IsAsciiLetter(tag[k])
    ensures StripFences(Fence + tag + "\n" + x + Fence) == x
  {
    var s := Fence + tag + "\n" + x + Fence;
    assert s[..3] == Fence;
    assert s[3..3 + |tag|] == tag;
    assert s[3 + |tag|] == '\n';
    LetterRunEndOf(s, 3, tag);
    assert OpeningFence(s) == 4 + |tag|;
    var rest := s[4 + |tag|..];
    assert rest == x + Fence;
    assert rest[|rest| - 3..] == Fence;
    assert rest[..|rest| - 3] == x;
  }

  /** ... and so is one with no newline after the tag */
  lemma StripTaggedFenceInline(tag: string, x: string)
    requires forall k :: 0 <= k < |tag| ==> IsAsciiLetter(tag[k])
    requires x == [] || (x[0] != '\n' && !IsAsciiLetter(x[0]))
    ensures StripFences(Fence + tag + x + Fence) == x
  {
    var s := Fence + tag + x + Fence;
    assert s[..3] == Fence;
    assert s[3..3 + |tag|] == tag;
    assert s[3 + |tag|] == (x + Fence)[0];
    LetterRunEndOf(s, 3, tag);
    assert OpeningFence(s) == 3 + |tag|;
    var rest := s[3 + |tag|..];
    assert rest == x + Fence;
    assert rest[|rest| - 3..] == Fence;
    assert rest[..|rest| - 3] == x;
  }

  /** The text handed to JSON.parse */
  function CleanReply(content: Option<string>): (r: string)
    ensures content.None? || content.value == "" ==> r == "{}"
    ensures content.Some? && content.value != "" && AllSpace(content.value) ==> r == ""
  {
    BracesUnfenced();
    EmptyUnfenced();
    StripFences(ReplyText(content))
  }

  lemma EmptyUnfenced()
    ensures StripFences("") == ""
  {
    assert !StartsWith("", Fence) && !EndsWith("", Fence);
  }

  /** The plan: whatever JSON.parse makes of the cleaned reply; its error,
      unchanged, when it fails */
  function PlanFromReply(content: Option<string>, parse: Parser): (r: Result<Json, string>)
    ensures var parsed := parse(CleanReply(content));
      && (r.Failure? <==> parsed.Failure?)
      && (r.Failure? ==> r.error == parsed.error)
      && (r.Success? ==> r.value == parsed.value)
  {
    match parse(CleanReply(content))
    case Success(v) => Success(v)
    case Failure(e) => Failure(e)
  }

  /** A missing reply and an empty one are treated alike */
  lemma MissingLikeEmpty(content: Option<string>, parse: Parser)
    requires content.None? || content.value == ""
    ensures PlanFromReply(content, parse) == PlanFromReply(None, parse)
  {
    BlankIsBraces(content);
    MissingIsBraces();
    SameTextSamePlan(content, None, parse);
  }

  lemma BlankIsBraces(content: Option<string>)
    requires content.None? || content.value == ""
    ensures CleanReply(content) == "{}"
  {
  }

  lemma MissingIsBraces()
    ensures CleanReply(None) == "{}"
  {
  }

  /** The plan depends on the reply only through its cleaned text */
  lemma SameTextSamePlan(a: Option<string>, b: Option<string>, parse: Parser)
    requires CleanReply(a) == CleanReply(b)
    ensures PlanFromReply(a, parse) == PlanFromReply(b, parse)
  {
  }

  lemma BracesUnfenced()
    ensures StripFences("{}") == "{}"
  {
    var s := "{}";
    assert !StartsWith(s, Fence);
    assert s[0..] == s && !EndsWith(s, Fence);
  }

  /** Where the two planners part ways on the same reply: an all-whitespace
      reply reaches this parser as "" but the vision parser as "{}" */
  lemma BlankReplyDiffers(blank: string)
    requires blank != "" && AllSpace(blank)
    ensures CleanReply(Some(blank)) == ""
    ensures VisionPlanner.CleanReply(Some(blank)) == "{}"
  {
  }

  /** ... and a fence tagged "html" is removed here but left, tag and all,
      for the vision parser */
  lemma HtmlFenceDiffers(x: string)
    ensures StripFences(Fence + "html" + "\n" + x + Fence) == x
    ensures VisionPlanner.StripFences(Fence + "html" + "\n" + x + Fence) == "html" + "\n" + x
  {
    var tag := "html";
    assert IsAsciiLetter(tag[0]) && IsAsciiLetter(tag[1]) && IsAsciiLetter(tag[2]) && IsAsciiLetter(tag[3]);
    StripTaggedFence(tag, x);
    VisionPlanner.StripOtherTag(tag, x);
  }
}

=== FILE: effects.dfy ===
/** The calls the bot makes into code outside this model (Playwright, the
    session store, the chat model, and the three page helpers the bot uses
    but Navigator does not define), and what each call can come back with.
    The outside world is a function from a call, and the number of calls made
    before it, to its answer; a run keeps the trace of calls and answers. */
module Effects {
  import opened Wrappers
  import opened JsonValue

  datatype Call =
    | LaunchChromium                  // chromium.launch({ headless: false })
    | NewContext                      // browser.newContext()
    | LoadSession                     // loadSession(browser)
    | NewPage                         // context.newPage()
    | Goto(url: string)               // page.goto(url)
    | WaitFor(selector: string, visible: bool, timeout: Option<int>)
                                      // page.waitForSelector; `visible` when state: 'visible' is asked for
    | ClickOn(selector: string)       // page.click(selector)
    | Fill(selector: string, text: string)
    | ReadContent                     // page.content()
    | CloseBrowser                    // browser.close()
    | AskModel(html: string)          // the chat completion behind getLoginPlanFromDOM, given the trimmed HTML
    | DescribeInput(target: Option<Json>)
    | CurrentUrl
    | Pause(ms: int)
    | SaveSession                     // saveSession(context)

  /** A call resolves with a value (the empty string for calls that resolve
      with nothing) or rejects with an error message */
  datatype Answer = Returned(value: string) | Threw(error: string)

  datatype Event = Event(call: Call, answer: Answer)

  /** The answer to a call, given how many calls came before it */
  type World = (nat, Call) -> Answer

  /** Make call `c` as call number `at` */
  function Ask(w: World, at: nat, c: Call): (e: Event)
    ensures e.call == c
  {
    Event(c, w(at, c))
  }

  /** The calls that act on the page as a user would: clicks, typing and pauses */
  predicate IsAct(c: Call) {
    c.ClickOn? || c.Fill? || c.Pause?
  }

  function Acts(events: seq<Event>): (r: seq<Call>)
    ensures |r| <= |events|
    ensures forall k :: 0 <= k < |r| ==> IsAct(r[k])
  {
    if events == [] then []
    else (if IsAct(events[0].call) then [events[0].call] else []) + Acts(events[1..])
  }

  lemma {:induction false} ActsAppend(a: seq<Event>, b: seq<Event>)
    ensures Acts(a + b) == Acts(a) + Acts(b)
    decreases |a|
  {
    if a == [] {
      assert a + b == b;
    } else {
      assert (a + b)[1..] == a[1..] + b;
      ActsAppend(a[1..], b);
    }
  }
}

=== FILE: fences.dfy ===
/** Markdown code fences around a model's reply. Both planners remove them
    with the same pair of replace calls; they differ only in how much of the
    opening fence the first call matches. */
module Fences {
  import opened JsText

  const Fence := "```"

  /** What the two replace calls leave of `s` when the first one matched its
      first `k` characters: the rest, less one closing fence at its very end */
  function Unwrap(s: string, k: nat): (r: string)
    requires k <= |s|
    ensures k + |r| <= |s| && r == s[k..k + |r|]
    ensures k + |r| == |s| || s[k + |r|..] == Fence
    ensures k + |r| == |s| <==> !EndsWith(s[k..], Fence)
  {
    var rest := s[k..];
    if EndsWith(rest, Fence) then rest[..|rest| - 3] else rest
  }
}

=== FILE: js_text.dfy ===
/** The pieces of JavaScript string handling the planners rely on: `trim`,
    `startsWith`/`endsWith`, `slice`, `join`, `split` on one character, and the
    decimal form a template literal gives an integer. */
module JsText {
  import opened Wrappers

  /** The characters String.prototype.trim removes: the ECMAScript
      WhiteSpace and LineTerminator code points. */
  predicate IsJsSpace(c: char) {
    || c == '\t' || c == '\n' || c == '\U{000B}' || c == '\U{000C}' || c == '\r'
    || c == ' ' || c == '\U{00A0}' || c == '\U{1680}'
    || ('\U{2000}' <= c <= '\U{200A}')
    || c == '\U{2028}' || c == '\U{2029}' || c == '\U{202F}' || c == '\U{205F}'
    || c == '\U{3000}' || c == '\U{FEFF}'
  }

  /** The characters a regular-expression `.` refuses unless the `s` flag is set */
  predicate IsLineTerminator(c: char) {
    c == '\n' || c == '\r' || c == '\U{2028}' || c == '\U{2029}'
  }

  predicate AllSpace(s: string) {
    forall k :: 0 <= k < |s| ==> IsJsSpace(s[k])
  }

  predicate StartsWith(s: string, p: string) {
    |p| <= |s| && s[..|p|] == p
  }

  predicate EndsWith(s: string, p: string) {
    |p| <= |s| && s[|s| - |p|..] == p
  }

  /** Only trimmed text: empty, or neither end is whitespace */
  predicate Trimmed(s: string) {
    s == [] || (!IsJsSpace(s[0]) && !IsJsSpace(s[|s| - 1]))
  }

  lemma AllSpaceConcat(a: string, b: string)
    requires AllSpace(a) && AllSpace(b)
    ensures AllSpace(a + b)
  {
    forall k | 0 <= k < |a + b|
      ensures IsJsSpace((a + b)[k])
    {
      if k < |a| {
        assert (a + b)[k] == a[k];
      } else {
        assert (a + b)[k] == b[k - |a|];
      }
    }
  }

  /** The end of the whitespace run that starts at `i` */
  function SpaceRunEnd(s: string, i: nat): (j: nat)
    requires i <= |s|
    ensures i <= j <= |s|
    ensures forall k :: i <= k < j ==> IsJsSpace(s[k])
    ensures j == |s| || !IsJsSpace(s[j])
    decreases |s| - i
  {
    if i < |s| && IsJsSpace(s[i]) then SpaceRunEnd(s, i + 1) else i
  }

  /** The start of the whitespace run that ends at `j` */
  function SpaceRunStart(s: string, j: nat): (i: nat)
    requires j <= |s|
    ensures i <= j
    ensures forall k :: i <= k < j ==> IsJsSpace(s[k])
    ensures i == 0 || !IsJsSpace(s[i - 1])
  {
    if j > 0 && IsJsSpace(s[j - 1]) then SpaceRunStart(s, j - 1) else j
  }

  /** A whitespace run from `i` that stops at `e` ends at `e` */
  lemma {:induction false} RunEndAt(s: string, i: nat, e: nat)
    requires i <= e <= |s|
    requires forall k :: i <= k < e ==> IsJsSpace(s[k])
    requires e == |s| || !IsJsSpace(s[e])
    ensures SpaceRunEnd(s, i) == e
    decreases e - i
  {
    if i < e {
      RunEndAt(s, i + 1, e);
    }
  }

  /** A whitespace run up to `j` that starts at `e` starts at `e` */
  lemma {:induction false} RunStartAt(s: string, e: nat, j: nat)
    requires e <= j <= |s|
    requires forall k :: e <= k < j ==> IsJsSpace(s[k])
    requires e == 0 || !IsJsSpace(s[e - 1])
    ensures SpaceRunStart(s, j) == e
    decreases j - e
  {
    if e < j {
      RunStartAt(s, e, j - 1);
    }
  }

  /** Leading whitespace removed; what was removed is all whitespace */
  function TrimStart(s: string): (r: string)
    ensures |r| <= |s| && r == s[|s| - |r|..]
    ensures AllSpace(s[..|s| - |r|])
    ensures r == [] || !IsJsSpace(r[0])
  {
    var i := SpaceRunEnd(s, 0);
    assert |s| - |s[i..]| == i;
    s[i..]
  }

  /** Trailing whitespace removed; what was removed is all whitespace */
  function TrimEnd(s: string): (r: string)
    ensures |r| <= |s| && r == s[..|r|]
    ensures AllSpace(s[|r|..])
    ensures r == [] || !IsJsSpace(r[|r| - 1])
  {
    var i := SpaceRunStart(s, |s|);
    assert forall k :: 0 <= k < |s| - i ==> s[i..][k] == s[i + k];
    s[..i]
  }

  /** String.prototype.trim: the text between the leading and the trailing
      whitespace, which is empty exactly when the whole string is whitespace */
  function Trim(s: string): (r: string)
    ensures Trimmed(r)
    ensures r == [] <==> AllSpace(s)
  {
    var t := TrimStart(s);
    var r := TrimEnd(t);
    TrimParts(s, t, r);
    r
  }

  /** `r` is the slice of `s` at `i`, with only whitespace around it */
  predicate IsMiddle(s: string, i: nat, r: string) {
    i + |r| <= |s| && r == s[i..i + |r|] && AllSpace(s[..i]) && AllSpace(s[i + |r|..])
  }

  /** What trim keeps is one slice of its input, with only whitespace around it */
  lemma TrimIsMiddle(s: string)
    ensures IsMiddle(s, |s| - |TrimStart(s)|, Trim(s))
  {
    MiddleOfParts(s, TrimStart(s), TrimEnd(TrimStart(s)));
  }

  /** Whitespace cut from the front, then from the back, leaves a middle slice */
  lemma MiddleOfParts(s: string, t: string, r: string)
    requires |t| <= |s| && t == s[|s| - |t|..] && AllSpace(s[..|s| - |t|])
    requires |r| <= |t| && r == t[..|r|] && AllSpace(t[|r|..])
    ensures IsMiddle(s, |s| - |t|, r)
  {
    var i := |s| - |t|;
    assert s[i..i + |r|] == t[..|r|];
    assert s[i + |r|..] == t[|r|..];
  }

  lemma TrimParts(s: string, t: string, r: string)
    requires |t| <= |s| && t == s[|s| - |t|..] && AllSpace(s[..|s| - |t|])
    requires |r| <= |t| && r == t[..|r|] && AllSpace(t[|r|..])
    requires t == [] || !IsJsSpace(t[0])
    requires r == [] || !IsJsSpace(r[|r| - 1])
    ensures Trimmed(r)
    ensures IsMiddle(s, |s| - |t|, r)
    ensures r == [] <==> AllSpace(s)
  {
    var i := |s| - |t|;
    assert s[i..i + |r|] == t[..|r|];
    assert s[i + |r|..] == t[|r|..];
    if r == [] {
      assert t == [];
      forall k | 0 <= k < |s|
        ensures IsJsSpace(s[k])
      {
        assert s[k] == s[..i][k];
      }
    } else {
      assert s[i + |r| - 1] == r[|r| - 1];
    }
  }

  lemma TrimStartOfPadded(a: string, t: string)
    requires AllSpace(a)
    requires t == [] || !IsJsSpace(t[0])
    ensures TrimStart(a + t) == t
  {
    RunEndAt(a + t, 0, |a|);
    assert (a + t)[|a|..] == t;
  }

  lemma TrimEndOfPadded(t: string, b: string)
    requires AllSpace(b)
    requires t == [] || !IsJsSpace(t[|t| - 1])
    ensures TrimEnd(t + b) == t
  {
    RunStartAt(t + b, |t|, |t + b|);
    assert (t + b)[..|t|] == t;
  }

  /** Trim is characterised by its input's shape: whitespace, then trimmed
      text, then whitespace, gives back exactly the middle */
  lemma TrimOfPadded(a: string, m: string, b: string)
    requires AllSpace(a) && AllSpace(b) && Trimmed(m)
    ensures Trim(a + m + b) == m
  {
    if m == [] {
      assert AllSpace(a + m + b);
    } else {
      assert a + m + b == a + (m + b);
      TrimStartOfPadded(a, m + b);
      TrimEndOfPadded(m, b);
    }
  }

  /** Trimming twice is trimming once */
  lemma TrimIdempotent(s: string)
    ensures Trim(Trim(s)) == Trim(s)
  {
    TrimOfTrimmed(Trim(s));
  }

  /** Trimmed text is its own trim */
  lemma TrimOfTrimmed(m: string)
    requires Trimmed(m)
    ensures Trim(m) == m
  {
    assert SpaceRunEnd(m, 0) == 0 && m[0..] == m;
    assert SpaceRunStart(m, |m|) == |m| && m[..|m|] == m;
  }

  /** String.prototype.slice(0, n) */
  function Prefix(s: string, n: nat): (r: string)
    ensures |r| <= n && r <= s
    ensures |s| <= n ==> r == s
    ensures |s| > n ==> |r| == n
  {
    if |s| <= n then s else s[..n]
  }

  /** Array.prototype.slice(-n) for n > 0: the last n elements, or all of
      them when there are fewer */
  function LastN<T>(xs: seq<T>, n: nat): (r: seq<T>)
    requires n > 0
    ensures |r| == if |xs| < n then |xs| else n
    ensures r == xs[|xs| - |r|..]
  {
    if |xs| <= n then xs else xs[|xs| - n..]
  }

  // ----- decimal numbers -----

  predicate IsDigit(c: char) {
    '0' <= c <= '9'
  }

  predicate AllDigits(s: string) {
    forall k :: 0 <= k < |s| ==> IsDigit(s[k])
  }

  function DigitValue(c: char): nat
    requires IsDigit(c)
  {
    (c as int) - ('0' as int)
  }

  function DigitChar(d: nat): (c: char)
    requires d < 10
    ensures IsDigit(c) && DigitValue(c) == d
  {
    ((('0' as int) + d) as char)
  }

  /** The decimal form of a natural number, as `${n}` writes it: at least
      one digit, and no leading zero */
  function NatToString(n: nat): (r: string)
    ensures |r| >= 1 && AllDigits(r)
    ensures r[0] == '0' ==> n == 0 && |r| == 1
    decreases n
  {
    if n < 10 then [DigitChar(n)] else NatToString(n / 10) + [DigitChar(n % 10)]
  }

  /** The number a string of decimal digits denotes */
  function DigitsValue(s: string): nat
    requires AllDigits(s)
    decreases |s|
  {
    if |s| == 0 then 0 else DigitsValue(s[..|s| - 1]) * 10 + DigitValue(s[|s| - 1])
  }

  /** Reading the decimal form back gives the number */
  lemma {:induction false} NatToStringRoundTrip(n: nat)
    ensures DigitsValue(NatToString(n)) == n
    decreases n
  {
    if n >= 10 {
      var s := NatToString(n);
      assert s[..|s| - 1] == NatToString(n / 10);
      NatToStringRoundTrip(n / 10);
    }
  }

  /** Distinct numbers are written differently */
  lemma NatToStringInjective(a: nat, b: nat)
    ensures NatToString(a) == NatToString(b) ==> a == b
  {
    NatToStringRoundTrip(a);
    NatToStringRoundTrip(b);
  }

  /** The end of the run of digits that starts at `from` */
  function DigitRunEnd(s: string, from: nat): (e: nat)
    requires from <= |s|
    ensures from <= e <= |s| && AllDigits(s[from..e])
    ensures e == |s| || !IsDigit(s[e])
    decreases |s| - from
  {
    if from < |s| && IsDigit(s[from]) then
      var e := DigitRunEnd(s, from + 1);
      assert s[from..e] == [s[from]] + s[from + 1..e];
      e
    else
      from
  }

  /** A digit run followed by a non-digit ends exactly there */
  lemma {:induction false} DigitRunEndOf(s: string, from: nat, d: string)
    requires from + |d| <= |s| && s[from..from + |d|] == d && AllDigits(d)
    requires from + |d| == |s| || !IsDigit(s[from + |d|])
    ensures DigitRunEnd(s, from) == from + |d|
    decreases |d|
  {
    if |d| > 0 {
      assert s[from] == d[0];
      assert s[from + 1..from + 1 + |d[1..]|] == d[1..];
      DigitRunEndOf(s, from + 1, d[1..]);
    }
  }

  /** The decimal form of an integer, with a leading '-' when negative */
  function IntToString(i: int): (r: string)
    ensures |r| >= 1
    ensures i < 0 <==> r[0] == '-'
  {
    if i < 0 then "-" + NatToString(-i) else NatToString(i)
  }

  /** Reads an optionally negative decimal integer; None for anything else */
  function ParseInt(s: string): Option<int> {
    if |s| > 1 && s[0] == '-' && AllDigits(s[1..]) then var v: int := DigitsValue(s[1..]); Some(-v)
    else if |s| >= 1 && AllDigits(s) then Some(DigitsValue(s))
    else None
  }

  lemma IntToStringRoundTrip(i: int)
    ensures ParseInt(IntToString(i)) == Some(i)
  {
    var s := IntToString(i);
    if i < 0 {
      assert s[1..] == NatToString(-i);
      NatToStringRoundTrip(-i);
      assert DigitsValue(s[1..]) == -i;
    } else {
      assert s == NatToString(i);
      assert IsDigit(s[0]);
      NatToStringRoundTrip(i);
    }
  }

  // ----- join and split -----

  /** Array.prototype.join: the pieces with `sep` between neighbours */
  function Join(xs: seq<string>, sep: string): (r: string)
    ensures |xs| == 0 ==> r == ""
    ensures |xs| == 1 ==> r == xs[0]
    decreases |xs|
  {
    if |xs| == 0 then "" else if |xs| == 1 then xs[0] else xs[0] + sep + Join(xs[1..], sep)
  }

  /** String.prototype.split on a single character: always at least one piece */
  function Split(s: string, c: char): (r: seq<string>)
    ensures |r| >= 1
    decreases |s|
  {
    if |s| == 0 then [""]
    else if s[0] == c then [""] + Split(s[1..], c)
    else
      var rest := Split(s[1..], c);
      [[s[0]] + rest[0]] + rest[1..]
  }

  lemma {:induction false} JoinExtendHead(h: string, xs: seq<string>, sep: string)
    requires |xs| >= 1
    ensures Join([h + xs[0]] + xs[1..], sep) == h + Join(xs, sep)
  {
    var ys := [h + xs[0]] + xs[1..];
    if |xs| > 1 {
      assert ys[1..] == xs[1..];
    }
  }

  /** Joining the pieces of a split restores the text */
  lemma {:induction false} JoinSplit(s: string, c: char)
    ensures Join(Split(s, c), [c]) == s
    decreases |s|
  {
    if |s| > 0 {
      var rest := Split(s[1..], c);
      JoinSplit(s[1..], c);
      if s[0] == c {
        var r := [""] + rest;
        assert r[1..] == rest;
        assert s == [c] + s[1..];
      } else {
        JoinExtendHead([s[0]], rest, [c]);
        assert s == [s[0]] + s[1..];
      }
    }
  }

  lemma {:induction false} SplitNoSeparator(s: string, c: char)
    requires c !in s
    ensures Split(s, c) == [s]
    decreases |s|
  {
    if |s| > 0 {
      SplitNoSeparator(s[1..], c);
      assert s == [s[0]] + s[1..];
    }
  }

  lemma {:induction false} SplitAtFirstSeparator(a: string, b: string, c: char)
    requires c !in a
    ensures Split(a + [c] + b, c) == [a] + Split(b, c)
    decreases |a|
  {
    var s := a + [c] + b;
    if |a| == 0 {
      assert s[1..] == b;
    } else {
      assert s[1..] == a[1..] + [c] + b;
      SplitAtFirstSeparator(a[1..], b, c);
      assert [a[0]] + a[1..] == a;
    }
  }

  /** Splitting a join recovers the pieces when no piece holds the separator */
  lemma {:induction false} SplitJoin(xs: seq<string>, c: char)
    requires |xs| >= 1
    requires forall i :: 0 <= i < |xs| ==> c !in xs[i]
    ensures Split(Join(xs, [c]), c) == xs
    decreases |xs|
  {
    if |xs| == 1 {
      SplitNoSeparator(xs[0], c);
    } else {
      SplitJoin(xs[1..], c);
      SplitAtFirstSeparator(xs[0], Join(xs[1..], [c]), c);
      assert [xs[0]] + xs[1..] == xs;
    }
  }
}

=== FILE: json_value.dfy ===
/** The values JSON.parse can produce, and the two JavaScript operations the
    bot applies to a parsed reply: reading a property and testing truthiness. */
module JsonValue {
  import opened Wrappers

  /** A JSON value; an object keeps its members in source order, duplicates included */
  datatype Json =
    | JNull
    | JBool(b: bool)
    | JNum(n: real)
    | JStr(s: string)
    | JArr(items: seq<Json>)
    | JObj(members: seq<(string, Json)>)

  /** JSON.parse: the parsed value, or the SyntaxError's message */
  type Parser = string -> Result<Json, string>

  /** The object `{ action: 'done' }` */
  const DoneAction: Json := JObj([("action", JStr("done"))])

  /** The value JSON.parse keeps for `key`: the last member that carries it
      (a later duplicate overwrites an earlier one), or None */
  function Lookup(members: seq<(string, Json)>, key: string): (r: Option<Json>)
    ensures r.None? <==> forall i :: 0 <= i < |members| ==> members[i].0 != key
    ensures r.Some? ==> exists i :: (0 <= i < |members| && members[i] == (key, r.value)
                                     && forall j :: i < j < |members| ==> members[j].0 != key)
    decreases |members|
  {
    if |members| == 0 then None
    else
      var last := members[|members| - 1];
      if last.0 == key then
        assert members[|members| - 1] == (key, last.1);
        Some(last.1)
      else
        var init := members[..|members| - 1];
        var r := Lookup(init, key);
        assert forall i :: 0 <= i < |init| ==> init[i] == members[i];
        assert members == init + [last];
        r
  }

  /** `v.key` in JavaScript: undefined (None) on anything but an object,
      except that reading a property of null throws a TypeError */
  function Property(v: Json, key: string): (r: Result<Option<Json>, string>)
    ensures r.Failure? <==> v.JNull?
    ensures r.Success? && r.value.Some? ==> v.JObj?
    ensures v.JObj? ==> r == Success(Lookup(v.members, key))
  {
    match v
    case JNull => Failure("TypeError: Cannot read properties of null (reading '" + key + "')")
    case JObj(members) => Success(Lookup(members, key))
    case _ => Success(None)
  }

  /** JavaScript truthiness of a property read (None is `undefined`) */
  predicate Truthy(v: Option<Json>) {
    match v
    case None => false
    case Some(JNull) => false
    case Some(JBool(b)) => b
    case Some(JNum(n)) => n != 0.0
    case Some(JStr(s)) => s != ""
    case Some(_) => true
  }
}

=== FILE: login_trial.dfy ===
/** launchBot: open Notion with a saved session, stop early when the
    dashboard is already there, otherwise click a login entry point, ask the
    model for the login selectors, fill in the credentials and wait for the
    dashboard. Every call into the browser, the session store and the model
    is an Effects call; one run is the resulting trace and how it ended. */
module LoginTrial {
  import opened Wrappers
  import opened JsonValue
  import opened Effects
  import opened Navigator
  import DomLoginPlanner

  const Home := "https://www.notion.so/"

  /** The element that shows the dashboard is up */
  const Dashboard := "text=Quick Find"

  /** The login entry points, in the order they are tried */
  const Triggers: seq<string> := ["text=Log in", "text=Login", "text=Sign in"]

  const MissingCredentials := "NOTION_EMAIL and NOTION_PASSWORD must be set in .env file"

  /** The error of a plan field that is not a selector string */
  const NotASelector := "login plan field is not a selector string"

  /** How the page reacted to the email step */
  datatype PageChange = UrlChanged | DomChanged | Unchanged

  datatype End = AlreadyLoggedIn | LoggedIn | Failed(error: string)

  /** A whole run: every call made, the page change seen (once the email step
      got that far), and how the run ended */
  datatype Run = Run(trace: seq<Event>, change: Option<PageChange>, end: End)

  /** The state between two awaited steps */
  datatype St = St(nav: Nav, trace: seq<Event>, change: Option<PageChange>)

  /** Either the run goes on from a state with a value, or it is over */
  datatype Flow<T> = Go(st: St, value: T) | Stop(run: Run) {
    predicate IsFailure() { Stop? }
    function PropagateFailure<U>(): Flow<U>
      requires Stop?
    {
      Stop(run)
    }
    function Extract(): (St, T)
      requires Go?
    {
      (st, value)
    }
    function Trace(): seq<Event> {
      if Go? then st.trace else run.trace
    }
  }

  /** A JavaScript string that is neither undefined nor empty */
  predicate Present(v: Option<string>) {
    v.Some? && v.value != ""
  }

  /** `b` is `a` with more calls after it */
  predicate Extends(a: seq<Event>, b: seq<Event>) {
    |a| <= |b| && b[..|a|] == a
  }

  lemma ExtendsByTwo(a: seq<Event>, x: seq<Event>, y: seq<Event>)
    ensures Extends(a, a + x + y) && |a + x + y| == |a| + |x| + |y|
  {
    assert (a + x + y)[..|a|] == a;
  }

  lemma ExtendsByAppend(a: seq<Event>, x: seq<Event>)
    ensures Extends(a, a + x)
  {
    assert (a + x)[..|a|] == a;
  }

  lemma ExtendsTrans(a: seq<Event>, b: seq<Event>, c: seq<Event>)
    requires Extends(a, b) && Extends(b, c)
    ensures Extends(a, c)
  {
    assert c[..|a|] == c[..|b|][..|a|];
  }

  /** A call made directly, not through the Navigator; a rejection ends the run */
  function Direct(st: St, w: World, c: Call): (r: Flow<string>)
    ensures r.Go? <==> w(|st.trace|, c).Returned?
    ensures r.Trace() == st.trace + [Ask(w, |st.trace|, c)]
    ensures r.Go? ==> (r.st.nav == st.nav && r.st.change == st.change
      && r.value == w(|st.trace|, c).value)
    ensures r.Stop? ==> r.run == Run(r.Trace(), st.change, Failed(w(|st.trace|, c).error))
    ensures Acts(r.Trace()) == Acts(st.trace) + (if IsAct(c) then [c] else [])
  {
    var e := Ask(w, |st.trace|, c);
    var t := st.trace + [e];
    ActsAppend(st.trace, [e]);
    match e.answer
    case Returned(v) => Go(st.(trace := t), v)
    case Threw(err) => Stop(Run(t, st.change, Failed(err)))
  }

  /** A Navigator operation inside the run; a throw ends the run */
  function Lift<T>(st: St, s: Step<T>): (r: Flow<T>)
    ensures r.Go? <==> s.result.Success?
    ensures r.Trace() == st.trace + s.events
    ensures r.Go? ==> r.st == St(s.nav, st.trace + s.events, st.change) && r.value == s.result.value
    ensures r.Stop? ==> r.run == Run(st.trace + s.events, st.change, Failed(s.result.error))
    ensures Acts(r.Trace()) == Acts(st.trace) + Acts(s.events)
  {
    ActsAppend(st.trace, s.events);
    match s.result
    case Success(v) => Go(St(s.nav, st.trace + s.events, st.change), v)
    case Failure(e) => Stop(Run(st.trace + s.events, st.change, Failed(e)))
  }

  /** A result the run needs: its error, if any, ends the run where it stands */
  function Need<T>(st: St, x: Result<T, string>): (r: Flow<T>)
    ensures r.Go? <==> x.Success?
    ensures r.Go? ==> r.st == st && r.value == x.value
    ensures r.Stop? ==> r.run == Run(st.trace, st.change, Failed(x.error))
  {
    match x
    case Success(v) => Go(st, v)
    case Failure(e) => Stop(Run(st.trace, st.change, Failed(e)))
  }

  // ----- opening the site -----

  /** The calls of a successful opening */
  function StartTrace(w: World): (t: seq<Event>)
    ensures |t| == 4
  {
    [Ask(w, 0, LaunchChromium), Ask(w, 1, LoadSession), Ask(w, 2, NewPage), Ask(w, 3, Goto(Home))]
  }

  /** Launch chromium, load the session into a context, open a page, hand it
      to a fresh Navigator with setPage, and go to the home page */
  function Start(w: World): (r: Flow<()>)
    ensures r.Go? <==> (w(0, LaunchChromium).Returned? && w(1, LoadSession).Returned?
      && w(2, NewPage).Returned? && w(3, Goto(Home)).Returned?)
    ensures r.Go? ==> r.st == St(Nav(None, Some(2)),
      [Ask(w, 0, LaunchChromium), Ask(w, 1, LoadSession), Ask(w, 2, NewPage), Ask(w, 3, Goto(Home))], None)
    ensures r.Stop? ==> r.run.end.Failed? && r.run.change.None?
    ensures Acts(r.Trace()) == []
  {
    var launched :- Direct(St(Fresh, [], None), w, LaunchChromium);
    var loaded :- Direct(launched.0, w, LoadSession);
    var paged :- Direct(loaded.0, w, NewPage);
    var st := paged.0.(nav := SetPage(paged.0.nav, 2));
    var went :- Lift(st, NavigateTo(st.nav, Home, w, 3));
    Go(went.0, ())
  }

  /** The dashboard check: found within 5 seconds, the browser is closed and
      the run is over; a failed wait, or a close that rejects inside the same
      try block, is swallowed and the login goes ahead */
  function SessionCheck(st: St, w: World): (r: Flow<()>)
    requires st.nav.page.Some?
    ensures r.Stop? <==> (w(|st.trace|, WaitFor(Dashboard, false, Some(5000))).Returned?
      && w(|st.trace| + 1, CloseBrowser).Returned?)
    ensures r.Stop? ==> r.run == Run(st.trace + [Ask(w, |st.trace|, WaitFor(Dashboard, false, Some(5000))),
                                                 Ask(w, |st.trace| + 1, CloseBrowser)], st.change, AlreadyLoggedIn)
    ensures r.Go? ==> r.st.nav == st.nav && r.st.change == st.change
    ensures Acts(r.Trace()) == Acts(st.trace)
  {
    var waited := WaitForSelector(st.nav, Dashboard, Some(5000), w, |st.trace|);
    var st1 := st.(trace := st.trace + waited.events);
    ActsAppend(st.trace, waited.events);
    if waited.result.Failure? then Go(st1, ())
    else
      var closed := Ask(w, |st1.trace|, CloseBrowser);
      var st2 := st1.(trace := st1.trace + [closed]);
      ActsAppend(st1.trace, [closed]);
      if closed.answer.Returned? then Stop(Run(st2.trace, st2.change, AlreadyLoggedIn)) else Go(st2, ())
  }

  /** A dashboard that does not show up is no error: the run goes on
      after the wait */
  lemma SessionCheckMissing(st: St, w: World)
    requires st.nav.page.Some? && w(|st.trace|, WaitFor(Dashboard, false, Some(5000))).Threw?
    ensures SessionCheck(st, w) == Go(st.(trace := st.trace + [Ask(w, |st.trace|, WaitFor(Dashboard, false, Some(5000)))]), ())
  {
  }

  /** A close that rejects after the dashboard showed up is swallowed too */
  lemma SessionCheckCloseRejected(st: St, w: World)
    requires st.nav.page.Some? && w(|st.trace|, WaitFor(Dashboard, false, Some(5000))).Returned?
    requires w(|st.trace| + 1, CloseBrowser).Threw?
    ensures SessionCheck(st, w) == Go(st.(trace := st.trace + [Ask(w, |st.trace|, WaitFor(Dashboard, false, Some(5000))),
                                                               Ask(w, |st.trace| + 1, CloseBrowser)]), ())
  {
    var waited := WaitForSelector(st.nav, Dashboard, Some(5000), w, |st.trace|);
    assert st.trace + waited.events + [Ask(w, |st.trace| + 1, CloseBrowser)]
        == st.trace + [Ask(w, |st.trace|, WaitFor(Dashboard, false, Some(5000))), Ask(w, |st.trace| + 1, CloseBrowser)];
  }

  // ----- the login triggers -----

  /** One try at a trigger: the selector, the number of calls made before
      it, and the Navigator click it made */
  datatype Attempt = Attempt(selector: string, at: nat, step: Step<()>)

  /** The number of calls made before the attempt after `a` */
  function NextAt(a: Attempt): nat {
    a.at + |a.step.events|
  }

  function Events(xs: seq<Attempt>): (r: seq<Event>)
    ensures xs == [] ==> r == []
  {
    if xs == [] then [] else xs[0].step.events + Events(xs[1..])
  }

  /** A click on the page: the selector and the number of calls made before it */
  type Clicker = (string, nat) -> Step<()>

  /** Click each trigger in turn until one click goes through; a failed
      click is swallowed and the next trigger is tried right after it */
  function TryTriggers(click: Clicker, triggers: seq<string>, at: nat): (r: seq<Attempt>)
    ensures |r| <= |triggers|
    decreases |triggers|
  {
    if triggers == [] then []
    else
      var s := click(triggers[0], at);
      var first := Attempt(triggers[0], at, s);
      if s.result.Success? then [first]
      else [first] + TryTriggers(click, triggers[1..], at + |s.events|)
  }

  /** The loop tries at least one trigger, every attempt but the last
      failed, and it stops short of the end only on a click that went through */
  lemma {:induction false} TriggerOutcomes(click: Clicker, triggers: seq<string>, at: nat)
    ensures var r := TryTriggers(click, triggers, at);
      && (triggers != [] ==> |r| >= 1)
      && (forall k :: 0 <= k < |r| - 1 ==> r[k].step.result.Failure?)
      && (|r| < |triggers| ==> r[|r| - 1].step.result.Success?)
    decreases |triggers|
  {
    var r := TryTriggers(click, triggers, at);
    if triggers != [] {
      var s := click(triggers[0], at);
      if s.result.Failure? {
        var rest := TryTriggers(click, triggers[1..], at + |s.events|);
        TriggerOutcomes(click, triggers[1..], at + |s.events|);
        assert r == [Attempt(triggers[0], at, s)] + rest;
        forall k | 1 <= k < |r| - 1
          ensures r[k].step.result.Failure?
        {
          assert r[k] == rest[k - 1];
        }
        if |r| < |triggers| {
          assert r[|r| - 1] == rest[|rest| - 1];
        }
      }
    }
  }

  /** Attempt k clicks trigger k */
  lemma {:induction false} TriggerAttempts(click: Clicker, triggers: seq<string>, at: nat)
    ensures var r := TryTriggers(click, triggers, at);
      && (forall k :: 0 <= k < |r| ==> r[k].selector == triggers[k])
      && (forall k :: 0 <= k < |r| ==> r[k].step == click(triggers[k], r[k].at))
    decreases |triggers|
  {
    var r := TryTriggers(click, triggers, at);
    if triggers != [] {
      var s := click(triggers[0], at);
      if s.result.Failure? {
        var rest := TryTriggers(click, triggers[1..], at + |s.events|);
        TriggerAttempts(click, triggers[1..], at + |s.events|);
        assert r == [Attempt(triggers[0], at, s)] + rest;
        forall k | 1 <= k < |r|
          ensures r[k].selector == triggers[k] && r[k].step == click(triggers[k], r[k].at)
        {
          assert r[k] == rest[k - 1];
          assert triggers[k] == triggers[1..][k - 1];
        }
      }
    }
  }

  /** The first attempt starts where the loop does, and each next one right
      after the calls of the one before */
  lemma {:induction false} TriggerPositions(click: Clicker, triggers: seq<string>, at: nat)
    ensures var r := TryTriggers(click, triggers, at);
      && (r != [] ==> r[0].at == at)
      && (forall k {:trigger NextAt(r[k])} :: 0 <= k < |r| - 1 ==> r[k + 1].at == NextAt(r[k]))
    decreases |triggers|
  {
    var r := TryTriggers(click, triggers, at);
    if triggers != [] {
      var s := click(triggers[0], at);
      if s.result.Failure? {
        var rest := TryTriggers(click, triggers[1..], at + |s.events|);
        TriggerPositions(click, triggers[1..], at + |s.events|);
        assert r == [Attempt(triggers[0], at, s)] + rest;
        forall k | 0 <= k < |r| - 1
          ensures r[k + 1].at == NextAt(r[k])
        {
          if k > 0 {
            assert r[k] == rest[k - 1] && r[k + 1] == rest[k];
          }
        }
      }
    }
  }

  /** The bot's click on trigger selectors */
  function BotClick(n: Nav, w: World): Clicker {
    (selector: string, at: nat) => Click(n, selector, w, at)
  }

  /** The trigger loop cannot end the run: whatever the clicks do, the run
      goes on from the same Navigator with the attempts' calls appended */
  function TriggerPhase(st: St, w: World): (r: St)
    ensures r.nav == st.nav && r.change == st.change
    ensures r.trace == st.trace + Events(TryTriggers(BotClick(st.nav, w), Triggers, |st.trace|))
  {
    st.(trace := st.trace + Events(TryTriggers(BotClick(st.nav, w), Triggers, |st.trace|)))
  }

  /** Acts of the calls of consecutive attempts */
  lemma EventsCons(first: Attempt, rest: seq<Attempt>)
    ensures Acts(Events([first] + rest)) == Acts(first.step.events) + Acts(Events(rest))
  {
    assert ([first] + rest)[1..] == rest;
    ActsAppend(first.step.events, Events(rest));
  }

  /** Page actions that are all clicks on one of the triggers */
  predicate TriggerClicks(acts: seq<Call>, triggers: seq<string>) {
    forall k :: 0 <= k < |acts| ==> acts[k].ClickOn? && acts[k].selector in triggers
  }

  lemma TriggerClicksJoin(a: seq<Call>, b: seq<Call>, triggers: seq<string>)
    requires triggers != []
    requires TriggerClicks(a, [triggers[0]]) && TriggerClicks(b, triggers[1..])
    ensures TriggerClicks(a + b, triggers)
  {
    forall k | 0 <= k < |a + b|
      ensures (a + b)[k].ClickOn? && (a + b)[k].selector in triggers
    {
      if k < |a| {
        assert (a + b)[k] == a[k];
        assert a[k].selector in [triggers[0]];
      } else {
        assert (a + b)[k] == b[k - |a|];
        assert b[k - |a|].selector in triggers[1..];
      }
    }
  }

  /** A click whose only page action, if any, is a click on its own selector */
  ghost predicate ClicksOnly(click: Clicker) {
    forall selector, at :: TriggerClicks(Acts(click(selector, at).events), [selector])
  }

  lemma BotClicksOnly(n: Nav, w: World)
    ensures ClicksOnly(BotClick(n, w))
  {
    forall selector, at
      ensures TriggerClicks(Acts(BotClick(n, w)(selector, at).events), [selector])
    {
      assert BotClick(n, w)(selector, at) == Click(n, selector, w, at);
    }
  }

  /** The trigger loop acts on the page only by clicking triggers */
  lemma {:induction false} TriggerActs(click: Clicker, triggers: seq<string>, at: nat)
    requires ClicksOnly(click)
    ensures TriggerClicks(Acts(Events(TryTriggers(click, triggers, at))), triggers)
    decreases |triggers|
  {
    if triggers != [] {
      var s := click(triggers[0], at);
      var first := Attempt(triggers[0], at, s);
      var r := TryTriggers(click, triggers, at);
      var head := Acts(s.events);
      assert TriggerClicks(head, [triggers[0]]);
      if s.result.Success? {
        assert r == [first] + [];
        EventsCons(first, []);
        TriggerClicksJoin(head, [], triggers);
      } else {
        var rest := TryTriggers(click, triggers[1..], at + |s.events|);
        assert r == [first] + rest;
        EventsCons(first, rest);
        TriggerActs(click, triggers[1..], at + |s.events|);
        TriggerClicksJoin(head, Acts(Events(rest)), triggers);
      }
    }
  }

  // ----- the login plan -----

  /** What becomes of the model's reply: the plan, or the error thrown */
  type ReplyReader = string -> Result<Json, string>

  /** getLoginPlanFromDOM as two halves around the model call: what it makes
      of the page HTML for the prompt, and what it makes of the reply */
  datatype Planner = Planner(prompt: string -> string, read: ReplyReader)

  /** The planner the bot uses, with the given JSON.parse */
  function DomPlanner(parse: Parser): Planner {
    Planner(html => DomLoginPlanner.TrimLoginDom(html), (reply: string) => DomLoginPlanner.PlanFromReply(Some(reply), parse))
  }

  /** The model request for a page's HTML */
  function ModelCall(p: Planner, html: string): Call {
    AskModel(p.prompt(html))
  }

  /** Read the page, ask the model for a plan from the trimmed HTML, and
      read the reply; a reply that gives no plan ends the run with the
      reader's error */
  function PlanPhase(st: St, w: World, p: Planner): (r: Flow<Json>)
    requires st.nav.page.Some?
    ensures w(|st.trace|, ReadContent).Threw? ==>
      r == Stop(Run(st.trace + [Ask(w, |st.trace|, ReadContent)], st.change, Failed(w(|st.trace|, ReadContent).error)))
    ensures w(|st.trace|, ReadContent).Returned? ==>
      r.Trace() == st.trace + [Ask(w, |st.trace|, ReadContent),
        Ask(w, |st.trace| + 1, ModelCall(p, w(|st.trace|, ReadContent).value))]
    ensures r.Go? ==> (w(|st.trace|, ReadContent).Returned?
      && w(|st.trace| + 1, ModelCall(p, w(|st.trace|, ReadContent).value)).Returned?
      && r.st.nav == st.nav && r.st.change == st.change
      && p.read(w(|st.trace| + 1, ModelCall(p, w(|st.trace|, ReadContent).value)).value) == Success(r.value))
    ensures r.Stop? ==> r.run.end.Failed? && r.run.change == st.change
    ensures Acts(r.Trace()) == Acts(st.trace)
    ensures r.Go? ==> |r.st.trace| == |st.trace| + 2 && PlanAt(w, r.st.trace, p, |st.trace|, r.value)
    ensures r.Go? ==> Extends(st.trace, r.st.trace)
  {
    var at := |st.trace|;
    var page := Ask(w, at, ReadContent);
    ActsAppend(st.trace, [page]);
    match page.answer
    case Threw(e) => Stop(Run(st.trace + [page], st.change, Failed(e)))
    case Returned(html) =>
      var asked := Ask(w, at + 1, ModelCall(p, html));
      var t := st.trace + [page, asked];
      assert t == (st.trace + [page]) + [asked];
      ExtendsByTwo(st.trace, [page], [asked]);
      ActsAppend(st.trace + [page], [asked]);
      match asked.answer
      case Threw(e) => Stop(Run(t, st.change, Failed(e)))
      case Returned(reply) =>
        match p.read(reply)
        case Success(plan) => Go(st.(trace := t), plan)
        case Failure(e) => Stop(Run(t, st.change, Failed(e)))
  }

  /** A plan field holding a selector */
  predicate IsSelector(v: Option<Json>) {
    v.Some? && v.value.JStr?
  }

  /** `plan.key` as a selector; reading any field of a null plan is a TypeError */
  function SelectorOf(plan: Json, key: string): (r: Result<string, string>)
    ensures r.Success? <==> plan.JObj? && IsSelector(Lookup(plan.members, key))
    ensures r.Success? ==> Lookup(plan.members, key) == Some(JStr(r.value))
    ensures plan.JNull? ==> r.Failure? && r.error == Property(plan, key).error
  {
    var v :- Property(plan, key);
    if IsSelector(v) then Success(v.value.s) else Failure(NotASelector)
  }

  /** `if (selectors.continue)`: nothing to click when the field is falsy
      (or missing), its selector when it is truthy, and an error when it is
      truthy but not a selector */
  function ContinueChoice(plan: Json): (r: Result<Option<string>, string>)
    requires plan.JObj?
    ensures r == Success(None) <==> !Truthy(Lookup(plan.members, "continue"))
    ensures r.Failure? <==> Truthy(Lookup(plan.members, "continue")) && !IsSelector(Lookup(plan.members, "continue"))
    ensures r.Success? && r.value.Some? ==> Lookup(plan.members, "continue") == Some(JStr(r.value.value))
  {
    var v := Lookup(plan.members, "continue");
    if !Truthy(v) then Success(None)
    else if IsSelector(v) then Success(Some(v.value.s))
    else Failure(NotASelector)
  }

  /** The selectors of a plan the login steps can carry out */
  datatype Selectors = Selectors(email: string, cont: Option<string>, password: string, submit: string)

  /** Every selector the login steps read from the plan, in the order the
      steps read them */
  function ReadSelectors(plan: Json): (r: Result<Selectors, string>)
    ensures r.Success? <==> (plan.JObj? && IsSelector(Lookup(plan.members, "email"))
      && (Truthy(Lookup(plan.members, "continue")) ==> IsSelector(Lookup(plan.members, "continue")))
      && IsSelector(Lookup(plan.members, "password")) && IsSelector(Lookup(plan.members, "submit")))
  {
    var email :- SelectorOf(plan, "email");
    var cont :- ContinueChoice(plan);
    var password :- SelectorOf(plan, "password");
    var submit :- SelectorOf(plan, "submit");
    Success(Selectors(email, cont, password, submit))
  }

  // ----- the login steps, as a script -----

  /** What the email step does to the page, in order */
  function EmailScript(e: string, cont: Option<string>, email: string): (r: seq<Call>)
    ensures |r| == 3 || |r| == 4
  {
    [ClickOn(e), Fill(e, email)] + ContinueScript(cont)
  }

  /** What the password step does to the page, in order */
  function PasswordScript(p: string, submit: string, password: string): (r: seq<Call>)
    ensures |r| == 3
  {
    [ClickOn(p), Fill(p, password)] + [ClickOn(submit)]
  }

  /** The whole login, as the page sees it */
  function LoginScript(s: Selectors, email: string, password: string): seq<Call> {
    EmailScript(s.email, s.cont, email) + PasswordScript(s.password, s.submit, password)
  }

  /** The trace holds, from position i, a look whose two reads both answered */
  predicate LookedAt(w: World, trace: seq<Event>, i: nat) {
    i + 2 <= |trace| && trace[i] == Ask(w, i, CurrentUrl) && trace[i + 1] == Ask(w, i + 1, ReadContent)
    && w(i, CurrentUrl).Returned? && w(i + 1, ReadContent).Returned?
  }

  /** The (URL, HTML) pair of the look at position i */
  function Seen(w: World, i: nat): (string, string)
    requires w(i, CurrentUrl).Returned? && w(i + 1, ReadContent).Returned?
  {
    (w(i, CurrentUrl).value, w(i + 1, ReadContent).value)
  }

  lemma LookedAtKept(w: World, a: seq<Event>, b: seq<Event>, i: nat)
    requires LookedAt(w, a, i) && Extends(a, b)
    ensures LookedAt(w, b, i)
  {
    assert b[i] == b[..|a|][i] && b[i + 1] == b[..|a|][i + 1];
  }

  /** A look made right after `a` stays in every later trace */
  lemma LookKeptThrough(w: World, a: seq<Event>, b: seq<Event>, c: seq<Event>, d: seq<Event>)
    requires Extends(a, b) && Extends(b, c) && Extends(c, d) && LookedAt(w, b, |a|)
    ensures Extends(a, d) && LookedAt(w, d, |a|)
  {
    ExtendsTrans(b, c, d);
    ExtendsTrans(a, b, d);
    LookedAtKept(w, b, d, |a|);
  }

  /** The page change of a run is the verdict on two looks recorded in its
      trace: the one at `i`, and a later one with exactly the page actions
      `between` made in between */
  ghost predicate ChangeFromLooks(w: World, trace: seq<Event>, i: nat, change: Option<PageChange>, between: seq<Call>) {
    LookedAt(w, trace, i)
    && exists j: nat :: i + 2 <= j && LookedAt(w, trace, j) && Acts(trace[i + 2..j]) == between
         && change == Some(Classify(Seen(w, i).0, Seen(w, j).0, Seen(w, i).1, Seen(w, j).1))
  }

  /** The page actions a trace grew by, when its acts grew by `script` */
  lemma ActsAdded(a: seq<Event>, b: seq<Event>, script: seq<Call>)
    requires Extends(a, b) && Acts(b) == Acts(a) + script
    ensures Acts(b[|a|..]) == script
  {
    assert b == a + b[|a|..];
    ActsAppend(a, b[|a|..]);
    assert (Acts(a) + script)[|Acts(a)|..] == script;
    assert (Acts(a) + Acts(b[|a|..]))[|Acts(a)|..] == Acts(b[|a|..]);
  }

  /** Note the URL, then the HTML: the pair the email step is judged by */
  function Look(st: St, w: World): (r: Flow<(string, string)>)
    requires st.nav.page.Some?
    ensures var n := |st.trace|;
      r.Go? <==> w(n, CurrentUrl).Returned? && w(n + 1, ReadContent).Returned?
    ensures var n := |st.trace|;
      r.Go? ==> r.st.trace == st.trace + [Ask(w, n, CurrentUrl), Ask(w, n + 1, ReadContent)]
    ensures r.Go? ==> LookedAt(w, r.st.trace, |st.trace|) && r.value == Seen(w, |st.trace|)
    ensures r.Go? ==> r.st.nav == st.nav && r.st.change == st.change
    ensures r.Stop? ==> r.run.end.Failed? && r.run.change == st.change
    ensures Acts(r.Trace()) == Acts(st.trace)
  {
    var url :- Direct(st, w, CurrentUrl);
    var html :- Lift(url.0, GetPageContent(url.0.nav, w, |url.0.trace|));
    Go(html.0, (url.1, html.1))
  }

  /** A first look kept in a trace that ends with a second one taken after it */
  lemma LooksJudged(w: World, b: seq<Event>, c: seq<Event>, i: nat, change: Option<PageChange>, between: seq<Call>)
    requires LookedAt(w, b, i) && Extends(b, c) && LookedAt(w, c, |b|)
    requires Acts(b[i + 2..]) == between
    requires change == Some(Classify(Seen(w, i).0, Seen(w, |b|).0, Seen(w, i).1, Seen(w, |b|).1))
    ensures ChangeFromLooks(w, c, i, change, between)
  {
    LookedAtKept(w, b, c, i);
    assert c[i + 2..|b|] == c[..|b|][i + 2..];
  }

  /** Look at the page before the email step: describe the email input,
      then note the URL and the HTML */
  function Before(st: St, w: World, target: Option<Json>): (r: Flow<(string, string)>)
    requires st.nav.page.Some?
    ensures var n := |st.trace|;
      r.Go? <==> (w(n, DescribeInput(target)).Returned? && w(n + 1, CurrentUrl).Returned?
                  && w(n + 2, ReadContent).Returned?)
    ensures var n := |st.trace|;
      r.Go? ==> r.st.trace == st.trace + [Ask(w, n, DescribeInput(target))]
                              + [Ask(w, n + 1, CurrentUrl), Ask(w, n + 2, ReadContent)]
    ensures r.Go? ==> LookedAt(w, r.st.trace, |st.trace| + 1) && r.value == Seen(w, |st.trace| + 1)
    ensures r.Go? ==> r.st.nav == st.nav && r.st.change == st.change
    ensures r.Stop? ==> r.run.end.Failed? && r.run.change == st.change
    ensures Acts(r.Trace()) == Acts(st.trace)
    ensures r.Go? ==> Extends(st.trace, r.st.trace) && |r.st.trace| == |st.trace| + 3
  {
    var n := |st.trace|;
    ExtendsByTwo(st.trace, [Ask(w, n, DescribeInput(target))], [Ask(w, n + 1, CurrentUrl), Ask(w, n + 2, ReadContent)]);
    var described :- Direct(st, w, DescribeInput(target));
    assert |described.0.trace| == |st.trace| + 1;
    Look(described.0, w)
  }

  /** Click a field, then fill it */
  function FillField(st: St, w: World, selector: string, text: string): (r: Flow<()>)
    requires st.nav.page.Some?
    ensures r.Go? ==> Extends(st.trace, r.st.trace)
    ensures r.Go? ==> r.st.nav == st.nav && r.st.change == st.change
    ensures r.Stop? ==> r.run.end.Failed? && r.run.change == st.change
    ensures r.Go? ==> Acts(r.Trace()) == Acts(st.trace) + [ClickOn(selector), Fill(selector, text)]
  {
    var clicked :- ClickStep(st, w, selector);
    var typed :- TypeStep(clicked.0, w, selector, text);
    ExtendsTrans(st.trace, clicked.0.trace, typed.0.trace);
    Assoc(Acts(st.trace), [ClickOn(selector)], [Fill(selector, text)]);
    Go(typed.0, ())
  }

  /** Typing inside the run */
  function TypeStep(st: St, w: World, selector: string, text: string): (r: Flow<()>)
    requires st.nav.page.Some?
    ensures r.Go? ==> Extends(st.trace, r.st.trace)
    ensures r.Go? ==> r.st.nav == st.nav && r.st.change == st.change
    ensures r.Stop? ==> r.run.end.Failed? && r.run.change == st.change
    ensures r.Go? ==> Acts(r.Trace()) == Acts(st.trace) + [Fill(selector, text)]
  {
    Lift(st, Type(st.nav, selector, text, w, |st.trace|))
  }

  /** A click inside the run */
  function ClickStep(st: St, w: World, selector: string): (r: Flow<()>)
    requires st.nav.page.Some?
    ensures r.Go? ==> Extends(st.trace, r.st.trace)
    ensures r.Go? ==> r.st.nav == st.nav && r.st.change == st.change
    ensures r.Stop? ==> r.run.end.Failed? && r.run.change == st.change
    ensures r.Go? ==> Acts(r.Trace()) == Acts(st.trace) + [ClickOn(selector)]
  {
    Lift(st, Click(st.nav, selector, w, |st.trace|))
  }

  /** The `continue` click, if any, and the pause */
  function ContinueScript(cont: Option<string>): seq<Call> {
    (if cont.Some? then [ClickOn(cont.value)] else []) + [Pause(2000)]
  }

  lemma Assoc<T>(a: seq<T>, b: seq<T>, c: seq<T>)
    ensures a + b + c == a + (b + c)
  {
  }

  /** Click `continue` when the plan gives a truthy one (a truthy one that
      is not a selector ends the run), then wait two seconds */
  function ContinueAndPause(st: St, w: World, cont: Result<Option<string>, string>): (r: Flow<()>)
    requires st.nav.page.Some?
    ensures r.Go? ==> Extends(st.trace, r.st.trace)
    ensures r.Go? ==> r.st.nav == st.nav && r.st.change == st.change && cont.Success?
    ensures r.Stop? ==> r.run.end.Failed? && r.run.change == st.change
    ensures r.Go? ==> Acts(r.Trace()) == Acts(st.trace) + ContinueScript(cont.value)
  {
    var choice :- Need(st, cont);
    var clicked :- MaybeClick(choice.0, w, choice.1);
    var paused :- Direct(clicked.0, w, Pause(2000));
    ExtendsTrans(st.trace, clicked.0.trace, paused.0.trace);
    Assoc(Acts(st.trace), if choice.1.Some? then [ClickOn(choice.1.value)] else [], [Pause(2000)]);
    Go(paused.0, ())
  }

  /** The click on `continue`, made only when the plan names one */
  function MaybeClick(st: St, w: World, choice: Option<string>): (r: Flow<()>)
    requires st.nav.page.Some?
    ensures r.Go? ==> Extends(st.trace, r.st.trace)
    ensures r.Go? ==> r.st.nav == st.nav && r.st.change == st.change
    ensures r.Stop? ==> r.run.end.Failed? && r.run.change == st.change
    ensures r.Go? ==> Acts(r.Trace()) == Acts(st.trace) + (if choice.Some? then [ClickOn(choice.value)] else [])
  {
    if choice.Some? then ClickStep(st, w, choice.value)
    else
      assert Acts(st.trace) + [] == Acts(st.trace);
      Go(st, ())
  }

  /** The email step: click and fill the email field, then `continue` and
      the pause */
  function EmailStep(st: St, w: World, e: string, cont: Result<Option<string>, string>, email: string): (r: Flow<()>)
    requires st.nav.page.Some?
    ensures r.Go? ==> Extends(st.trace, r.st.trace)
    ensures r.Go? ==> r.st.nav == st.nav && r.st.change == st.change && cont.Success?
    ensures r.Stop? ==> r.run.end.Failed? && r.run.change == st.change
    ensures r.Go? ==> Acts(r.Trace()) == Acts(st.trace) + EmailScript(e, cont.value, email)
  {
    var filled :- FillField(st, w, e, email);
    var rest :- ContinueAndPause(filled.0, w, cont);
    ExtendsTrans(st.trace, filled.0.trace, rest.0.trace);
    Assoc(Acts(st.trace), [ClickOn(e), Fill(e, email)], ContinueScript(cont.value));
    Go(rest.0, ())
  }


  // ----- after the email step -----

  /** The three-way verdict on the email step: a new URL, else new HTML,
      else no visible change */
  function Classify(beforeUrl: string, afterUrl: string, beforeDom: string, afterDom: string): (c: PageChange)
    ensures c == UrlChanged <==> afterUrl != beforeUrl
    ensures c == DomChanged <==> afterUrl == beforeUrl && beforeDom != afterDom
    ensures c == Unchanged <==> afterUrl == beforeUrl && beforeDom == afterDom
  {
    if afterUrl != beforeUrl then UrlChanged
    else if beforeDom != afterDom then DomChanged
    else Unchanged
  }

  /** Note the URL and the HTML again and record how the page changed */
  function Observe(st: St, w: World, before: (string, string)): (r: Flow<()>)
    requires st.nav.page.Some?
    ensures r.Go? ==> (r.st.nav == st.nav
      && r.st.trace == st.trace + [Ask(w, |st.trace|, CurrentUrl), Ask(w, |st.trace| + 1, ReadContent)]
      && w(|st.trace|, CurrentUrl).Returned? && w(|st.trace| + 1, ReadContent).Returned?)
    ensures r.Go? ==> r.st.change == Some(Classify(before.0, w(|st.trace|, CurrentUrl).value,
                                                   before.1, w(|st.trace| + 1, ReadContent).value))
    ensures r.Stop? ==> r.run.end.Failed? && r.run.change == st.change
    ensures Acts(r.Trace()) == Acts(st.trace)
    ensures r.Go? ==> (Extends(st.trace, r.st.trace) && LookedAt(w, r.st.trace, |st.trace|)
      && r.st.change == Some(Classify(before.0, Seen(w, |st.trace|).0, before.1, Seen(w, |st.trace|).1)))
  {
    var after :- Look(st, w);
    ExtendsByAppend(st.trace, after.0.trace[|st.trace|..]);
    Go(after.0.(change := Some(Classify(before.0, after.1.0, before.1, after.1.1))), ())
  }

  /** The password step: click and fill the password field, then click
      submit (a submit field that is not a selector ends the run) */
  function PasswordStep(st: St, w: World, p: string, submit: Result<string, string>, password: string): (r: Flow<()>)
    requires st.nav.page.Some?
    ensures r.Go? ==> Extends(st.trace, r.st.trace)
    ensures r.Go? ==> r.st.nav == st.nav && r.st.change == st.change && submit.Success?
    ensures r.Stop? ==> r.run.end.Failed? && r.run.change == st.change
    ensures r.Go? ==> Acts(r.Trace()) == Acts(st.trace) + PasswordScript(p, submit.value, password)
  {
    var filled :- FillField(st, w, p, password);
    var sel :- Need(filled.0, submit);
    var clicked :- ClickStep(sel.0, w, sel.1);
    ExtendsTrans(st.trace, filled.0.trace, clicked.0.trace);
    Assoc(Acts(st.trace), [ClickOn(p), Fill(p, password)], [ClickOn(sel.1)]);
    Go(clicked.0, ())
  }

  /** The calls that end a successful login, in order */
  const FinishCalls: seq<Call> := [WaitFor(Dashboard, false, Some(15000)), SaveSession, CloseBrowser]

  /** Wait up to 15 seconds for the dashboard, save the session, close the browser */
  function Finish(st: St, w: World): (r: Flow<()>)
    requires st.nav.page.Some?
    ensures r.Go? <==> (w(|st.trace|, FinishCalls[0]).Returned? && w(|st.trace| + 1, FinishCalls[1]).Returned?
      && w(|st.trace| + 2, FinishCalls[2]).Returned?)
    ensures r.Go? ==> r.st.trace == st.trace + [Ask(w, |st.trace|, FinishCalls[0]),
      Ask(w, |st.trace| + 1, FinishCalls[1]), Ask(w, |st.trace| + 2, FinishCalls[2])]
    ensures r.Go? ==> r.st.nav == st.nav && r.st.change == st.change
    ensures r.Stop? ==> r.run.end.Failed? && r.run.change == st.change
    ensures Acts(r.Trace()) == Acts(st.trace)
    ensures r.Go? ==> Extends(st.trace, r.st.trace)
  {
    var waited :- Lift(st, WaitForSelector(st.nav, Dashboard, Some(15000), w, |st.trace|));
    var saved :- Direct(waited.0, w, SaveSession);
    var closed :- Direct(saved.0, w, CloseBrowser);
    ExtendsByAppend(st.trace, closed.0.trace[|st.trace|..]);
    Go(closed.0, ())
  }

  // ----- the login, from the plan to the dashboard -----

  /** The plan's email selector read, then the email step */
  function EmailTail(st: St, w: World, plan: Json, email: string): (r: Flow<()>)
    requires st.nav.page.Some?
    ensures r.Go? ==> (r.st.nav == st.nav && r.st.change == st.change && Extends(st.trace, r.st.trace)
      && plan.JObj? && SelectorOf(plan, "email").Success? && ContinueChoice(plan).Success?
      && Acts(r.Trace()) == Acts(st.trace)
         + EmailScript(SelectorOf(plan, "email").value, ContinueChoice(plan).value, email))
    ensures r.Go? ==>
      Acts(r.st.trace[|st.trace|..]) == EmailScript(SelectorOf(plan, "email").value, ContinueChoice(plan).value, email)
    ensures r.Stop? ==> r.run.end.Failed? && r.run.change == st.change
  {
    var e :- Need(st, SelectorOf(plan, "email"));
    var stepped :- EmailStep(e.0, w, e.1, ContinueChoice(plan), email);
    ActsAdded(st.trace, stepped.0.trace, EmailScript(e.1, ContinueChoice(plan).value, email));
    Go(stepped.0, ())
  }

  /** From describing the email input to the end of the email step; returns
      the URL and HTML seen before it */
  function EmailHalf(st: St, w: World, plan: Json, email: string): (r: Flow<(string, string)>)
    requires st.nav.page.Some?
    ensures r.Go? ==> (r.st.nav == st.nav && r.st.change == st.change
      && plan.JObj? && SelectorOf(plan, "email").Success? && ContinueChoice(plan).Success?
      && Acts(r.Trace()) == Acts(st.trace)
         + EmailScript(SelectorOf(plan, "email").value, ContinueChoice(plan).value, email))
    ensures r.Stop? ==> r.run.end.Failed? && r.run.change == st.change
    ensures r.Go? ==> LookedAt(w, r.st.trace, |st.trace| + 1) && r.value == Seen(w, |st.trace| + 1)
    ensures r.Go? ==> (Extends(st.trace, r.st.trace) && Acts(r.st.trace[|st.trace| + 3..])
      == EmailScript(SelectorOf(plan, "email").value, ContinueChoice(plan).value, email))
    ensures plan.JNull? ==> r == Stop(Run(st.trace, st.change, Failed(Property(plan, "email").error)))
  {
    var target :- Need(st, Property(plan, "email"));
    var before :- Before(target.0, w, target.1);
    var emailed :- EmailTail(before.0, w, plan, email);
    LookedAtKept(w, before.0.trace, emailed.0.trace, |st.trace| + 1);
    ExtendsTrans(st.trace, before.0.trace, emailed.0.trace);
    Go(emailed.0, before.1)
  }

  /** From the second look at the page to the closed browser, given the
      plan's password and submit fields as read */
  function PasswordHalf(st: St, w: World, p: Result<string, string>, submit: Result<string, string>,
                        before: (string, string), password: string): (r: Flow<()>)
    requires st.nav.page.Some?
    ensures r.Go? ==> (r.st.change.Some? && p.Success? && submit.Success?
      && Acts(r.Trace()) == Acts(st.trace) + PasswordScript(p.value, submit.value, password))
    ensures r.Go? ==> (LookedAt(w, r.st.trace, |st.trace|)
      && r.st.change == Some(Classify(before.0, Seen(w, |st.trace|).0, before.1, Seen(w, |st.trace|).1)))
    ensures r.Go? ==> Extends(st.trace, r.st.trace)
    ensures r.Stop? ==> r.run.end.Failed?
  {
    var seen :- Observe(st, w, before);
    var pw :- Need(seen.0, p);
    var passed :- PasswordStep(pw.0, w, pw.1, submit, password);
    var done :- Finish(passed.0, w);
    LookKeptThrough(w, st.trace, seen.0.trace, passed.0.trace, done.0.trace);
    Go(done.0, ())
  }

  /** Everything after the plan arrived: a plan that ends up logged in is
      one whose selectors all could be read, and the page saw exactly the
      login script for them; a null plan fails at once, before any call */
  function LoginPhase(st: St, w: World, plan: Json, email: string, password: string): (r: Flow<Selectors>)
    requires st.nav.page.Some?
    ensures r.Go? ==> (r.st.change.Some? && ReadSelectors(plan) == Success(r.value)
      && Acts(r.Trace()) == Acts(st.trace) + LoginScript(r.value, email, password))
    ensures r.Stop? ==> r.run.end.Failed?
    ensures r.Go? ==> Extends(st.trace, r.st.trace)
    ensures r.Go? ==> ChangeFromLooks(w, r.st.trace, |st.trace| + 1, r.st.change, EmailScript(r.value.email, r.value.cont, email))
    ensures plan.JNull? ==> r.Stop? && r.Trace() == st.trace
  {
    var emailed :- EmailHalf(st, w, plan, email);
    var rest :- PasswordHalf(emailed.0, w, SelectorOf(plan, "password"), SelectorOf(plan, "submit"),
                             emailed.1, password);
    var s := ReadSelectors(plan).value;
    assert s.email == SelectorOf(plan, "email").value && s.cont == ContinueChoice(plan).value;
    LooksJudged(w, emailed.0.trace, rest.0.trace, |st.trace| + 1, rest.0.change, EmailScript(s.email, s.cont, email));
    ExtendsTrans(st.trace, emailed.0.trace, rest.0.trace);
    Assoc(Acts(st.trace), EmailScript(s.email, s.cont, email), PasswordScript(s.password, s.submit, password));
    Go(rest.0, s)
  }

  // ----- the whole run -----

  /** Every call of the opening answers */
  predicate StartFound(w: World) {
    w(0, LaunchChromium).Returned? && w(1, LoadSession).Returned? && w(2, NewPage).Returned?
    && w(3, Goto(Home)).Returned?
  }

  /** Every call of a run that finds the dashboard at once answers */
  predicate SessionFound(w: World) {
    StartFound(w) && w(4, WaitFor(Dashboard, false, Some(5000))).Returned? && w(5, CloseBrowser).Returned?
  }

  /** The trace of such a run */
  function SessionTrace(w: World): seq<Event> {
    StartTrace(w) + [Ask(w, 4, WaitFor(Dashboard, false, Some(5000))), Ask(w, 5, CloseBrowser)]
  }

  /** Open the site and check for the dashboard: the run stops here,
      logged in already, exactly when all six calls answer */
  function Opening(w: World): (r: Flow<()>)
    ensures r.Stop? ==> r.run.end.AlreadyLoggedIn? || r.run.end.Failed?
    ensures r.Go? ==> r.st.nav == Nav(None, Some(2)) && r.st.change.None?
    ensures Acts(r.Trace()) == []
  {
    var started :- Start(w);
    SessionCheck(started.0, w)
  }

  /** When all six calls answer, the run ends there, logged in already */
  lemma SessionFoundEndsRun(w: World)
    ensures SessionFound(w) ==> Opening(w) == Stop(Run(SessionTrace(w), None, AlreadyLoggedIn))
  {
    if SessionFound(w) {
      assert Start(w).st == St(Nav(None, Some(2)), StartTrace(w), None);
    }
  }

  /** ... and only then */
  lemma OnlySessionFoundEndsRun(w: World)
    ensures Opening(w).Stop? && Opening(w).run.end.AlreadyLoggedIn? ==> SessionFound(w)
  {
  }

  /** The page actions of a run that logged in: clicks on login triggers,
      then exactly the login script for the plan's selectors */
  predicate TriggerClicksThenLogin(acts: seq<Call>, s: Selectors, email: string, password: string) {
    var script := LoginScript(s, email, password);
    |script| <= |acts| && acts[|acts| - |script|..] == script
    && TriggerClicks(acts[..|acts| - |script|], Triggers)
  }

  /** Trigger clicks followed by the login script are such a run's actions */
  lemma ClicksThenScript(clicks: seq<Call>, s: Selectors, email: string, password: string)
    requires TriggerClicks(clicks, Triggers)
    ensures TriggerClicksThenLogin(clicks + LoginScript(s, email, password), s, email, password)
  {
    var acts := clicks + LoginScript(s, email, password);
    assert acts[..|clicks|] == clicks;
    assert acts[|clicks|..] == LoginScript(s, email, password);
  }

  /** The trace holds, from position k, the page read and the model call
      whose reply the planner reads as `plan` */
  predicate PlanAt(w: World, trace: seq<Event>, p: Planner, k: nat, plan: Json) {
    k + 2 <= |trace| && trace[k] == Ask(w, k, ReadContent) && trace[k].answer.Returned?
    && trace[k + 1] == Ask(w, k + 1, ModelCall(p, trace[k].answer.value)) && trace[k + 1].answer.Returned?
    && p.read(trace[k + 1].answer.value) == Success(plan)
  }

  /** The trace holds, from position k, the page read and the model call
      whose reply the planner reads as a plan with the selectors `s` */
  predicate PlanReadAt(w: World, trace: seq<Event>, p: Planner, k: nat, s: Selectors) {
    k + 2 <= |trace| && trace[k] == Ask(w, k, ReadContent) && trace[k].answer.Returned?
    && trace[k + 1] == Ask(w, k + 1, ModelCall(p, trace[k].answer.value)) && trace[k + 1].answer.Returned?
    && SelectorsFromReply(p, trace[k + 1].answer.value) == Success(s)
  }

  /** The selectors the planner reads from a reply, when it reads a plan */
  function SelectorsFromReply(p: Planner, reply: string): (r: Result<Selectors, string>)
    ensures r.Success? <==> p.read(reply).Success? && ReadSelectors(p.read(reply).value).Success?
    ensures r.Success? ==> ReadSelectors(p.read(reply).value) == r
  {
    var plan :- p.read(reply);
    ReadSelectors(plan)
  }

  lemma PlanReadKept(w: World, a: seq<Event>, b: seq<Event>, p: Planner, k: nat, s: Selectors)
    requires PlanReadAt(w, a, p, k, s) && Extends(a, b)
    ensures PlanReadAt(w, b, p, k, s)
  {
    assert b[k] == a[k] && b[k + 1] == a[k + 1] by {
      assert b[..|a|] == a;
    }
  }

  /** How a login that went through came about: the model's reply, read at
      `k`, gave a plan with the selectors `s`; the page was looked at right
      after the plan's email input was described, and again after exactly
      the email script for `s`; the change is the verdict on those looks */
  ghost predicate LoginJudged(w: World, trace: seq<Event>, p: Planner, s: Selectors, email: string,
                              change: Option<PageChange>) {
    exists k: nat :: PlanReadAt(w, trace, p, k, s)
      && ChangeFromLooks(w, trace, k + 3, change, EmailScript(s.email, s.cont, email))
  }

  lemma PlanThenLooks(w: World, planned: seq<Event>, trace: seq<Event>, p: Planner, k: nat, plan: Json,
                      s: Selectors, email: string, change: Option<PageChange>)
    requires PlanAt(w, planned, p, k, plan) && |planned| == k + 2 && ReadSelectors(plan) == Success(s)
    requires Extends(planned, trace)
    requires ChangeFromLooks(w, trace, |planned| + 1, change, EmailScript(s.email, s.cont, email))
    ensures LoginJudged(w, trace, p, s, email, change)
  {
    assert PlanReadAt(w, planned, p, k, s);
    PlanReadKept(w, planned, trace, p, k, s);
    JudgedAt(w, trace, p, k, s, email, change);
  }

  lemma JudgedAt(w: World, trace: seq<Event>, p: Planner, k: nat, s: Selectors, email: string,
                 change: Option<PageChange>)
    requires PlanReadAt(w, trace, p, k, s)
    requires ChangeFromLooks(w, trace, k + 3, change, EmailScript(s.email, s.cont, email))
    ensures LoginJudged(w, trace, p, s, email, change)
  {
  }

  /** From the dashboard check to the dashboard */
  function Login(st: St, w: World, p: Planner, email: string, password: string): (r: Flow<Selectors>)
    requires st.nav.page.Some?
    ensures r.Stop? ==> r.run.end.Failed?
    ensures r.Go? ==> r.st.change.Some? && LoginJudged(w, r.st.trace, p, r.value, email, r.st.change)
    ensures r.Go? && Acts(st.trace) == [] ==> TriggerClicksThenLogin(Acts(r.st.trace), r.value, email, password)
    ensures r.Go? ==> Extends(TriggerPhase(st, w).trace, r.st.trace)
  {
    var tried := TriggerPhase(st, w);
    var logged :- PlanAndLogin(tried, w, p, email, password);
    var clicks := Events(TryTriggers(BotClick(st.nav, w), Triggers, |st.trace|));
    ActsAppend(st.trace, clicks);
    BotClicksOnly(st.nav, w);
    TriggerActs(BotClick(st.nav, w), Triggers, |st.trace|);
    ClicksThenScript(Acts(clicks), logged.1, email, password);
    assert Acts(st.trace) == [] ==> Acts(st.trace) + Acts(clicks) == Acts(clicks);
    Go(logged.0, logged.1)
  }

  /** Ask the model for a plan, then log in with it */
  function PlanAndLogin(st: St, w: World, p: Planner, email: string, password: string): (r: Flow<Selectors>)
    requires st.nav.page.Some?
    ensures r.Stop? ==> r.run.end.Failed?
    ensures r.Go? ==> r.st.change.Some? && LoginJudged(w, r.st.trace, p, r.value, email, r.st.change)
    ensures r.Go? ==> Acts(r.st.trace) == Acts(st.trace) + LoginScript(r.value, email, password)
    ensures r.Go? ==> Extends(st.trace, r.st.trace)
  {
    var planned :- PlanPhase(st, w, p);
    var logged :- LoginPhase(planned.0, w, planned.1, email, password);
    ExtendsTrans(st.trace, planned.0.trace, logged.0.trace);
    PlanThenLooks(w, planned.0.trace, logged.0.trace, p, |st.trace|, planned.1, logged.1, email, logged.0.change);
    Go(logged.0, logged.1)
  }

  /** launchBot once the credentials are known */
  function Bot(w: World, parse: Parser, email: string, password: string): (r: Flow<Selectors>)
    ensures r.Stop? ==> r.run.end.AlreadyLoggedIn? || r.run.end.Failed?
    ensures r.Stop? && r.run.end.AlreadyLoggedIn? <==> SessionFound(w)
    ensures r.Stop? && r.run.end.AlreadyLoggedIn? ==> r.run.trace == SessionTrace(w) && Acts(r.run.trace) == []
    ensures r.Go? ==> r.st.change.Some? && TriggerClicksThenLogin(Acts(r.st.trace), r.value, email, password)
    ensures r.Go? ==> LoginJudged(w, r.st.trace, DomPlanner(parse), r.value, email, r.st.change)
    ensures r.Go? ==> Opening(w).Go? && Extends(TriggerPhase(Opening(w).st, w).trace, r.st.trace)
  {
    SessionFoundEndsRun(w);
    OnlySessionFoundEndsRun(w);
    var ready :- Opening(w);
    Login(ready.0, w, DomPlanner(parse), email, password)
  }

  /** launchBot: the credentials are checked when the module loads, before
      any call; then the run goes as Bot says */
  function LaunchBot(w: World, parse: Parser, email: Option<string>, password: Option<string>): (r: Run)
    ensures !(Present(email) && Present(password)) ==> r == Run([], None, Failed(MissingCredentials))
    ensures r.end == AlreadyLoggedIn <==> Present(email) && Present(password) && SessionFound(w)
    ensures r.end == AlreadyLoggedIn ==> r.trace == SessionTrace(w) && Acts(r.trace) == []
    ensures r.end == LoggedIn ==> (r.change.Some?
      && exists s :: TriggerClicksThenLogin(Acts(r.trace), s, email.value, password.value)
           && LoginJudged(w, r.trace, DomPlanner(parse), s, email.value, r.change))
    ensures r.end == LoggedIn ==> Opening(w).Go? && Extends(TriggerPhase(Opening(w).st, w).trace, r.trace)
  {
    if !(Present(email) && Present(password)) then Run([], None, Failed(MissingCredentials))
    else
      match Bot(w, parse, email.value, password.value)
      case Stop(run) => run
      case Go(st, _) => Run(st.trace, st.change, LoggedIn)
  }

  // ----- three runs, call by call -----

  /** Without the dashboard, the run goes on after the opening and the wait */
  lemma OpeningWithoutDashboard(w: World)
    requires StartFound(w) && w(4, WaitFor(Dashboard, false, Some(5000))).Threw?
    ensures Opening(w) == Go(St(Nav(None, Some(2)), StartTrace(w) + [Ask(w, 4, WaitFor(Dashboard, false, Some(5000)))], None), ())
  {
    assert Start(w).st == St(Nav(None, Some(2)), StartTrace(w), None);
    SessionCheckMissing(Start(w).st, w);
  }

  /** A dashboard check that succeeds but whose close rejects does not end
      the run: the login goes ahead after the same six calls that a run
      already logged in makes */
  lemma CloseRejectionProceeds(w: World)
    requires StartFound(w) && w(4, WaitFor(Dashboard, false, Some(5000))).Returned?
    requires w(5, CloseBrowser).Threw?
    ensures !SessionFound(w)
    ensures Opening(w) == Go(St(Nav(None, Some(2)), SessionTrace(w), None), ())
  {
    assert Start(w).st == St(Nav(None, Some(2)), StartTrace(w), None);
    SessionCheckCloseRejected(Start(w).st, w);
  }

  /** The trigger loop starts by waiting for "text=Log in" to be visible */
  lemma TriggerLoopStarts(st: St, w: World)
    requires st.nav.page.Some?
    ensures |TriggerPhase(st, w).trace| > |st.trace|
    ensures TriggerPhase(st, w).trace[|st.trace|] == Ask(w, |st.trace|, WaitFor("text=Log in", true, None))
  {
    var click := BotClick(st.nav, w);
    var a0 := click(Triggers[0], |st.trace|);
    assert a0 == Click(st.nav, Triggers[0], w, |st.trace|);
    var r0 := TryTriggers(click, Triggers, |st.trace|);
    assert r0[0] == Attempt(Triggers[0], |st.trace|, a0);
    assert Events(r0) == a0.events + Events(r0[1..]);
  }

  /** Every click, from `at` on, fails after exactly one call */
  predicate AllFail(click: Clicker, triggers: seq<string>, at: nat)
    decreases |triggers|
  {
    triggers == [] ||
    (click(triggers[0], at).result.Failure? && |click(triggers[0], at).events| == 1
     && AllFail(click, triggers[1..], at + 1))
  }

  /** The single call of each click, in order */
  function FailCalls(click: Clicker, triggers: seq<string>, at: nat): (r: seq<Event>)
    requires AllFail(click, triggers, at)
    ensures |r| == |triggers|
    decreases |triggers|
  {
    if triggers == [] then [] else click(triggers[0], at).events + FailCalls(click, triggers[1..], at + 1)
  }

  /** Clicks that all fail after one call each: the loop tries every
      trigger, and its calls are those single calls in order */
  lemma {:induction false} AllClicksFail(click: Clicker, triggers: seq<string>, at: nat)
    requires AllFail(click, triggers, at)
    ensures Events(TryTriggers(click, triggers, at)) == FailCalls(click, triggers, at)
    decreases |triggers|
  {
    if triggers != [] {
      var s := click(triggers[0], at);
      var rest := TryTriggers(click, triggers[1..], at + 1);
      AllClicksFail(click, triggers[1..], at + 1);
      var r := [Attempt(triggers[0], at, s)] + rest;
      assert TryTriggers(click, triggers, at) == r;
      assert r[0].step == s && r[1..] == rest;
    }
  }

  /** Clicks that each fail after one call, stated position by position */
  lemma {:induction false} AllFailAt(click: Clicker, triggers: seq<string>, at: nat)
    requires forall k :: 0 <= k < |triggers| ==>
      click(triggers[k], at + k).result.Failure? && |click(triggers[k], at + k).events| == 1
    ensures AllFail(click, triggers, at)
    ensures forall k :: 0 <= k < |triggers| ==> FailCalls(click, triggers, at)[k] == click(triggers[k], at + k).events[0]
    decreases |triggers|
  {
    if triggers != [] {
      var tail := triggers[1..];
      forall k | 0 <= k < |tail|
        ensures click(tail[k], at + 1 + k).result.Failure? && |click(tail[k], at + 1 + k).events| == 1
      {
        assert tail[k] == triggers[k + 1] && at + 1 + k == at + (k + 1);
      }
      AllFailAt(click, tail, at + 1);
      var f := FailCalls(click, triggers, at);
      assert f == click(triggers[0], at).events + FailCalls(click, tail, at + 1);
      forall k | 0 <= k < |triggers|
        ensures f[k] == click(triggers[k], at + k).events[0]
      {
        if k > 0 {
          assert f[k] == FailCalls(click, tail, at + 1)[k - 1];
          assert tail[k - 1] == triggers[k] && at + 1 + (k - 1) == at + k;
        }
      }
    }
  }

  /** Each bot click whose wait is rejected fails with that one call */
  lemma BotClicksRejected(n: Nav, w: World, triggers: seq<string>, at: nat)
    requires n.page.Some?
    requires forall k :: 0 <= k < |triggers| ==> w(at + k, WaitFor(triggers[k], true, None)).Threw?
    ensures forall k :: 0 <= k < |triggers| ==>
      BotClick(n, w)(triggers[k], at + k).result.Failure? && BotClick(n, w)(triggers[k], at + k).events ==
        [Ask(w, at + k, WaitFor(triggers[k], true, None))]
  {
    forall k | 0 <= k < |triggers|
      ensures BotClick(n, w)(triggers[k], at + k) == Step(n, [Ask(w, at + k, WaitFor(triggers[k], true, None))],
        Failure(w(at + k, WaitFor(triggers[k], true, None)).error))
    {
      ClickWaitRejected(n, triggers[k], w, at + k);
    }
  }

  /** When no trigger becomes visible, the loop waits for each in turn and
      clicks nothing: its calls are one wait per trigger, in order (the bot's
      trigger phase is this loop over Triggers) */
  lemma WaitsRejected(n: Nav, w: World, triggers: seq<string>, at: nat)
    requires n.page.Some?
    requires forall k :: 0 <= k < |triggers| ==> w(at + k, WaitFor(triggers[k], true, None)).Threw?
    ensures var e := Events(TryTriggers(BotClick(n, w), triggers, at));
      && |e| == |triggers|
      && forall k :: 0 <= k < |triggers| ==> e[k] == Ask(w, at + k, WaitFor(triggers[k], true, None))
  {
    var click := BotClick(n, w);
    BotClicksRejected(n, w, triggers, at);
    AllFailAt(click, triggers, at);
    AllClicksFail(click, triggers, at);
  }

  /** When the first trigger is visible and its click goes through, the
      other triggers are never tried */
  lemma FirstTriggerClicked(st: St, w: World)
    requires st.nav.page.Some?
    requires w(|st.trace|, WaitFor(Triggers[0], true, None)).Returned?
    requires w(|st.trace| + 1, ClickOn(Triggers[0])).Returned?
    ensures TriggerPhase(st, w).trace == st.trace + [Ask(w, |st.trace|, WaitFor(Triggers[0], true, None)),
      Ask(w, |st.trace| + 1, ClickOn(Triggers[0]))]
  {
    var at := |st.trace|;
    var click := BotClick(st.nav, w);
    ClickWentThrough(st.nav, Triggers[0], w, at);
    var a0 := click(Triggers[0], at);
    var r0 := TryTriggers(click, Triggers, at);
    assert r0 == [Attempt(Triggers[0], at, a0)];
    assert Events(r0) == a0.events + Events([]);
  }
}

=== FILE: navigator.dfy ===
/** The Navigator wrapper: two optional handles, a browser and a page. Every
    page operation first insists on a page, with the error "Browser not
    launched"; a browser handle is only what `close` looks at. */
module Navigator {
  import opened Wrappers
  import opened Effects

  /** A handle names the object by the number of the call that produced it */
  type Handle = nat

  datatype Nav = Nav(browser: Option<Handle>, page: Option<Handle>)

  /** `new Navigator()` */
  const Fresh := Nav(None, None)

  const NotLaunched := "Browser not launched"

  /** One operation: the state after it, the calls it made, and whether it
      resolved (with a value) or threw */
  datatype Step<T> = Step(nav: Nav, events: seq<Event>, result: Result<T, string>)

  /** Outcome of a single awaited call whose value is not used */
  function Settle(a: Answer): (r: Result<(), string>)
    ensures r.Success? <==> a.Returned?
    ensures a.Threw? ==> r.error == a.error
  {
    match a
    case Returned(_) => Success(())
    case Threw(e) => Failure(e)
  }

  /** setPage: adopt a page made elsewhere; the browser handle is not touched */
  function SetPage(n: Nav, page: Handle): (r: Nav)
    ensures r.page == Some(page) && r.browser == n.browser
  {
    n.(page := Some(page))
  }

  /** launch: the browser handle is stored as soon as chromium starts, so a
      failure in newContext or newPage leaves a browser without a new page */
  function Launch(n: Nav, w: World, at: nat): (r: Step<()>)
    ensures 1 <= |r.events| <= 3
    ensures r.result.Success? <==> |r.events| == 3 && r.events[2].answer.Returned?
    ensures r.result.Success? ==> r.nav == Nav(Some(at), Some(at + 2))
    ensures r.events[0] == Ask(w, at, LaunchChromium)
    ensures r.events[0].answer.Threw? ==> r.nav == n && |r.events| == 1
    ensures r.events[0].answer.Returned? && r.result.Failure? ==>
      r.nav == Nav(Some(at), n.page)
  {
    var launched := Ask(w, at, LaunchChromium);
    if launched.answer.Threw? then Step(n, [launched], Failure(launched.answer.error))
    else
      var held := n.(browser := Some(at));
      var context := Ask(w, at + 1, NewContext);
      if context.answer.Threw? then Step(held, [launched, context], Failure(context.answer.error))
      else
        var page := Ask(w, at + 2, NewPage);
        if page.answer.Threw? then Step(held, [launched, context, page], Failure(page.answer.error))
        else Step(held.(page := Some(at + 2)), [launched, context, page], Success(()))
  }

  /** The guard shared by every page operation */
  function Guarded<T>(n: Nav, op: Step<T>): (r: Step<T>)
    ensures n.page.None? ==> r == Step(n, [], Failure(NotLaunched))
    ensures n.page.Some? ==> r == op
  {
    if n.page.None? then Step(n, [], Failure(NotLaunched)) else op
  }

  /** navigateTo(url) */
  function NavigateTo(n: Nav, url: string, w: World, at: nat): (r: Step<()>)
    ensures r.nav == n
    ensures r.events == [] <==> n.page.None?
    ensures n.page.None? ==> r.result == Failure(NotLaunched)
    ensures n.page.Some? ==> (r.events == [Ask(w, at, Goto(url))]
      && r.result == Settle(w(at, Goto(url))))
  {
    Guarded(n, Step(n, [Ask(w, at, Goto(url))], Settle(w(at, Goto(url)))))
  }

  /** click(selector): wait until the element is visible, and click only if
      that wait resolved */
  function Click(n: Nav, selector: string, w: World, at: nat): (r: Step<()>)
    ensures r.nav == n
    ensures r.events == [] <==> n.page.None?
    ensures n.page.None? ==> r.result == Failure(NotLaunched)
    ensures n.page.Some? ==> r.events[0] == Ask(w, at, WaitFor(selector, true, None))
    ensures Acts(r.events) == [ClickOn(selector)] <==>
      n.page.Some? && w(at, WaitFor(selector, true, None)).Returned?
    ensures Acts(r.events) == [] || Acts(r.events) == [ClickOn(selector)]
    ensures r.result.Success? <==>
      |r.events| == 2 && r.events[0].answer.Returned? && r.events[1].answer.Returned?
  {
    var waited := Ask(w, at, WaitFor(selector, true, None));
    var op :=
      if waited.answer.Threw? then Step(n, [waited], Failure(waited.answer.error))
      else
        var clicked := Ask(w, at + 1, ClickOn(selector));
        Step(n, [waited, clicked], Settle(clicked.answer));
    assert Acts(op.events[1..]) == (if |op.events| == 2 then [ClickOn(selector)] else []);
    Guarded(n, op)
  }

  /** type(selector, text): fill the field */
  function Type(n: Nav, selector: string, text: string, w: World, at: nat): (r: Step<()>)
    ensures r.nav == n
    ensures r.events == [] <==> n.page.None?
    ensures n.page.None? ==> r.result == Failure(NotLaunched)
    ensures n.page.Some? ==> (r.events == [Ask(w, at, Fill(selector, text))]
      && r.result == Settle(w(at, Fill(selector, text))))
    ensures Acts(r.events) == [] || Acts(r.events) == [Fill(selector, text)]
    ensures n.page.Some? ==> Acts(r.events) == [Fill(selector, text)]
  {
    Guarded(n, Step(n, [Ask(w, at, Fill(selector, text))], Settle(w(at, Fill(selector, text)))))
  }

  /** getPageContent(): the page's HTML */
  function GetPageContent(n: Nav, w: World, at: nat): (r: Step<string>)
    ensures r.nav == n
    ensures r.events == [] <==> n.page.None?
    ensures n.page.None? ==> r.result == Failure(NotLaunched)
    ensures n.page.Some? ==> r.events == [Ask(w, at, ReadContent)]
    ensures n.page.Some? && w(at, ReadContent).Returned? ==>
      r.result == Success(w(at, ReadContent).value)
    ensures n.page.Some? && w(at, ReadContent).Threw? ==>
      r.result == Failure(w(at, ReadContent).error)
    ensures Acts(r.events) == []
  {
    var read := Ask(w, at, ReadContent);
    Guarded(n, Step(n, [read],
      match read.answer
      case Returned(html) => Success(html)
      case Threw(e) => Failure(e)))
  }

  /** waitForSelector(selector, options): the options are passed on as given */
  function WaitForSelector(n: Nav, selector: string, timeout: Option<int>, w: World, at: nat): (r: Step<()>)
    ensures r.nav == n
    ensures r.events == [] <==> n.page.None?
    ensures n.page.None? ==> r.result == Failure(NotLaunched)
    ensures n.page.Some? ==> (r.events == [Ask(w, at, WaitFor(selector, false, timeout))]
      && r.result == Settle(w(at, WaitFor(selector, false, timeout))))
    ensures Acts(r.events) == []
  {
    var waited := Ask(w, at, WaitFor(selector, false, timeout));
    Guarded(n, Step(n, [waited], Settle(waited.answer)))
  }

  /** close(): only a held browser is closed, and both handles are dropped
      only once the close resolved; without a browser nothing happens, even
      when a page is held */
  function Close(n: Nav, w: World, at: nat): (r: Step<()>)
    ensures n.browser.None? ==> r == Step(n, [], Success(()))
    ensures n.browser.Some? ==> r.events == [Ask(w, at, CloseBrowser)]
    ensures n.browser.Some? && w(at, CloseBrowser).Returned? ==> r.nav == Fresh && r.result.Success?
    ensures n.browser.Some? && w(at, CloseBrowser).Threw? ==>
      r.nav == n && r.result == Failure(w(at, CloseBrowser).error)
  {
    if n.browser.None? then Step(n, [], Success(()))
    else
      var closed := Ask(w, at, CloseBrowser);
      match closed.answer
      case Returned(_) => Step(Fresh, [closed], Success(()))
      case Threw(e) => Step(n, [closed], Failure(e))
  }

  /** Once a close has gone through, closing again calls nothing and changes nothing */
  lemma CloseIdempotent(n: Nav, w: World, at: nat, w2: World, at2: nat)
    requires Close(n, w, at).result.Success?
    ensures var first := Close(n, w, at).nav;
      Close(first, w2, at2) == Step(first, [], Success(()))
  {
  }

  /** A Navigator given a page by setPage holds no browser: closing it keeps
      the page, and the page operations still reach the page */
  lemma SetPageSurvivesClose(page: Handle, url: string, w: World, at: nat)
    ensures var n := SetPage(Fresh, page);
      var c := Close(n, w, at);
      c == Step(n, [], Success(()))
      && NavigateTo(c.nav, url, w, at).events == [Ask(w, at, Goto(url))]
  {
  }

  /** Every page operation on a fresh Navigator fails with the guard's error
      and calls nothing */
  lemma FreshNavigatorRefuses(selector: string, text: string, url: string, timeout: Option<int>, w: World, at: nat)
    ensures NavigateTo(Fresh, url, w, at) == Step(Fresh, [], Failure(NotLaunched))
    ensures Click(Fresh, selector, w, at) == Step(Fresh, [], Failure(NotLaunched))
    ensures Type(Fresh, selector, text, w, at) == Step(Fresh, [], Failure(NotLaunched))
    ensures GetPageContent(Fresh, w, at) == Step(Fresh, [], Failure(NotLaunched))
    ensures WaitForSelector(Fresh, selector, timeout, w, at) == Step(Fresh, [], Failure(NotLaunched))
  {
  }

  /** After a successful launch every page operation gets past the guard,
      and after a close it is refused again */
  lemma LaunchThenClose(w: World, at: nat, url: string)
    requires Launch(Fresh, w, at).result.Success?
    requires w(at + 3, CloseBrowser).Returned?
    ensures var up := Launch(Fresh, w, at).nav;
      NavigateTo(up, url, w, at + 3).events != []
      && Close(up, w, at + 3).nav == Fresh
      && NavigateTo(Close(up, w, at + 3).nav, url, w, at + 4).result == Failure(NotLaunched)
  {
  }

  /** A click whose wait rejects makes no click and fails with the wait's error */
  lemma ClickWaitRejected(n: Nav, selector: string, w: World, at: nat)
    requires n.page.Some? && w(at, WaitFor(selector, true, None)).Threw?
    ensures Click(n, selector, w, at) ==
      Step(n, [Ask(w, at, WaitFor(selector, true, None))], Failure(w(at, WaitFor(selector, true, None)).error))
  {
  }

  /** A click whose wait and click both resolve makes exactly those two calls */
  lemma ClickWentThrough(n: Nav, selector: string, w: World, at: nat)
    requires n.page.Some? && w(at, WaitFor(selector, true, None)).Returned? && w(at + 1, ClickOn(selector)).Returned?
    ensures Click(n, selector, w, at) ==
      Step(n, [Ask(w, at, WaitFor(selector, true, None)), Ask(w, at + 1, ClickOn(selector))], Success(()))
  {
  }
}

=== FILE: tag_scan.dfy ===
/** The three global regular expressions trimLoginDOM runs over the page HTML,
    written out as scanners:

      /<input[^>]*>/g              an input tag up to the first '>'
      /<button[^>]*>.*?<\/button>/g a button up to the first "</button>", on one line
      /<form[^>]*>.*?<\/form>/gs    a form up to the first "</form>", across lines

    `MatchAt` is what the expression matches when tried at one position; `Scan`
    is the global search (`String.prototype.match` with the `g` flag), which
    tries each position in turn and resumes after every match. */
module TagScan {
  import opened Wrappers
  import opened JsText

  /** `open` then any non-'>' characters then '>'; when `close` is present, the
      shortest run of characters up to `close`, line breaks allowed only when
      `dotAll` (the `s` flag) is set */
  datatype Pattern = Pattern(open: string, close: Option<string>, dotAll: bool)

  const InputTag := Pattern("<input", None, false)
  const ButtonTag := Pattern("<button", Some("</button>"), false)
  const FormTag := Pattern("<form", Some("</form>"), true)

  /** A matched region of the input, as [start, end) */
  datatype Span = Span(start: nat, end: nat)

  predicate OccursAt(s: string, p: string, k: nat) {
    k + |p| <= |s| && s[k..k + |p|] == p
  }

  /** The first position at or after `from` holding `c` */
  function FindChar(s: string, c: char, from: nat): (r: Option<nat>)
    ensures r.Some? ==> from <= r.value < |s| && s[r.value] == c
    ensures r.Some? ==> forall k :: from <= k < r.value ==> s[k] != c
    ensures r.None? ==> forall k :: from <= k < |s| ==> s[k] != c
    decreases |s| - from
  {
    if from >= |s| then None
    else if s[from] == c then Some(from)
    else FindChar(s, c, from + 1)
  }

  /** The first position at or after `from` where `p` occurs */
  function FindText(s: string, p: string, from: nat): (r: Option<nat>)
    ensures r.Some? ==> from <= r.value && OccursAt(s, p, r.value)
    ensures r.Some? ==> forall k :: from <= k < r.value ==> !OccursAt(s, p, k)
    ensures r.None? ==> forall k :: from <= k ==> !OccursAt(s, p, k)
    decreases |s| - from
  {
    if from + |p| > |s| then None
    else if OccursAt(s, p, from) then Some(from)
    else FindText(s, p, from + 1)
  }

  /** An occurrence with none before it is the one FindText reports */
  lemma FindTextFirst(s: string, p: string, from: nat, k: nat)
    requires from <= k && OccursAt(s, p, k)
    requires forall j :: from <= j < k ==> !OccursAt(s, p, j)
    ensures FindText(s, p, from) == Some(k)
  {
  }

  /** No character in [lo, hi) is a line terminator */
  predicate NoLineBreak(s: string, lo: nat, hi: nat)
    requires lo <= hi <= |s|
  {
    forall k :: lo <= k < hi ==> !IsLineTerminator(s[k])
  }

  /** The end of the match of `pat` that starts at position i, if any */
  function MatchAt(s: string, pat: Pattern, i: nat): (r: Option<nat>)
    ensures r.Some? ==> i < r.value <= |s| && OccursAt(s, pat.open, i)
  {
    if !OccursAt(s, pat.open, i) then None
    else
      match FindChar(s, '>', i + |pat.open|)
      case None => None
      case Some(g) =>
        match pat.close
        case None => Some(g + 1)
        case Some(close) =>
          match FindText(s, close, g + 1)
          case None => None
          case Some(k) =>
            if pat.dotAll || NoLineBreak(s, g + 1, k) then Some(k + |close|) else None
  }

  /** What one expression matches when tried at each position of a text of
      length n: None, or the end of the match, which lies beyond the start */
  type Matcher = nat -> Option<nat>

  ghost predicate Advances(m: Matcher, n: nat) {
    forall i: nat :: m(i).Some? ==> i < m(i).value <= n
  }

  /** The expression of `pat` tried at each position of `s` */
  function At(s: string, pat: Pattern): (m: Matcher)
    ensures Advances(m, |s|)
  {
    i => MatchAt(s, pat, i)
  }

  /** Nothing matches at any position in [lo, hi) */
  predicate NoMatchIn(m: Matcher, lo: nat, hi: nat) {
    forall p :: lo <= p < hi ==> m(p).None?
  }

  /** Where the search resumes before the k-th match: `from`, then after each match */
  function Resume(from: nat, spans: seq<Span>, k: nat): nat
    requires k <= |spans|
  {
    if k == 0 then from else spans[k - 1].end
  }

  /** What a global search from `from` must return: every span is a match,
      found at the first matching position after the previous one ended, and
      no match is left after the last */
  predicate GlobalMatches(m: Matcher, n: nat, from: nat, spans: seq<Span>) {
    && (forall k :: 0 <= k < |spans| ==> m(spans[k].start) == Some(spans[k].end))
    && (forall k {:trigger Resume(from, spans, k)} :: 0 <= k < |spans| ==>
          && Resume(from, spans, k) <= spans[k].start
          && NoMatchIn(m, Resume(from, spans, k), spans[k].start))
    && Resume(from, spans, |spans|) <= n
    && NoMatchIn(m, Resume(from, spans, |spans|), n)
  }

  lemma GlobalMatchesSkip(m: Matcher, n: nat, from: nat, spans: seq<Span>)
    requires from < n && m(from).None?
    requires GlobalMatches(m, n, from + 1, spans)
    ensures GlobalMatches(m, n, from, spans)
  {
    if |spans| > 0 {
      assert Resume(from + 1, spans, 0) <= spans[0].start;
      assert Resume(from, spans, 0) == from;
      forall k | 0 < k < |spans|
        ensures Resume(from, spans, k) == Resume(from + 1, spans, k)
      {
      }
    }
  }

  lemma GlobalMatchesTake(m: Matcher, n: nat, from: nat, e: nat, rest: seq<Span>)
    requires m(from) == Some(e)
    requires GlobalMatches(m, n, e, rest)
    ensures GlobalMatches(m, n, from, [Span(from, e)] + rest)
  {
    var spans := [Span(from, e)] + rest;
    forall k | 0 < k <= |spans|
      ensures Resume(from, spans, k) == Resume(e, rest, k - 1)
    {
    }
    assert Resume(from, spans, |spans|) == Resume(e, rest, |rest|);
    forall k | 0 < k < |spans|
      ensures spans[k] == rest[k - 1]
    {
    }
  }

  /** The global search: try each position in turn, resume after each match */
  function ScanWith(m: Matcher, n: nat, from: nat): (spans: seq<Span>)
    requires Advances(m, n) && from <= n
    ensures GlobalMatches(m, n, from, spans)
    decreases n - from
  {
    if from == n then
      []
    else
      match m(from)
      case Some(e) =>
        var rest := ScanWith(m, n, e);
        GlobalMatchesTake(m, n, from, e, rest);
        [Span(from, e)] + rest
      case None =>
        var rest := ScanWith(m, n, from + 1);
        GlobalMatchesSkip(m, n, from, rest);
        rest
  }

  lemma FirstMatchTaken(m: Matcher, n: nat, from: nat, e: nat, spans: seq<Span>)
    requires GlobalMatches(m, n, from, spans)
    requires from < n && m(from) == Some(e)
    ensures |spans| > 0 && spans[0] == Span(from, e)
    ensures GlobalMatches(m, n, e, spans[1..])
  {
    assert Resume(from, spans, 0) == from;
    assert |spans| > 0;
    assert spans[0].start == from;
    var rest := spans[1..];
    forall k | 0 <= k <= |rest|
      ensures Resume(e, rest, k) == Resume(from, spans, k + 1)
    {
    }
    forall k | 0 <= k < |rest|
      ensures rest[k] == spans[k + 1]
    {
    }
  }

  lemma NoMatchSkipped(m: Matcher, n: nat, from: nat, spans: seq<Span>)
    requires GlobalMatches(m, n, from, spans)
    requires from < n && m(from).None?
    ensures GlobalMatches(m, n, from + 1, spans)
  {
    forall k | 0 <= k <= |spans|
      ensures k > 0 ==> Resume(from, spans, k) == Resume(from + 1, spans, k)
      ensures k == 0 && k < |spans| ==> Resume(from + 1, spans, k) <= spans[k].start
      ensures k < |spans| ==> NoMatchIn(m, Resume(from + 1, spans, k), spans[k].start)
    {
      if k == 0 && k < |spans| {
        assert Resume(from, spans, 0) <= spans[0].start;
        assert spans[0].start != from;
      }
      if k < |spans| {
        assert NoMatchIn(m, Resume(from, spans, k), spans[k].start);
      }
    }
  }

  /** The first match lies between `from` and the end of the text */
  lemma FirstSpanBounds(m: Matcher, n: nat, from: nat, spans: seq<Span>)
    requires Advances(m, n) && GlobalMatches(m, n, from, spans)
    ensures |spans| > 0 ==> from <= spans[0].start < n
  {
    if |spans| > 0 {
      assert Resume(from, spans, 0) <= spans[0].start;
      assert m(spans[0].start) == Some(spans[0].end);
    }
  }

  /** The global search has exactly one possible result: any span list that
      meets the specification is the one the search returns */
  lemma {:induction false} GlobalMatchesUnique(m: Matcher, n: nat, from: nat, spans: seq<Span>)
    requires Advances(m, n) && from <= n
    requires GlobalMatches(m, n, from, spans)
    ensures spans == ScanWith(m, n, from)
    decreases n - from
  {
    if from == n {
      FirstSpanBounds(m, n, from, spans);
    } else {
      match m(from)
      case Some(e) =>
        FirstMatchTaken(m, n, from, e, spans);
        GlobalMatchesUnique(m, n, e, spans[1..]);
        assert ScanWith(m, n, from) == [Span(from, e)] + ScanWith(m, n, e);
        assert spans == [Span(from, e)] + spans[1..];
      case None =>
        NoMatchSkipped(m, n, from, spans);
        GlobalMatchesUnique(m, n, from + 1, spans);
        assert ScanWith(m, n, from) == ScanWith(m, n, from + 1);
    }
  }

  /** Each span starts after the previous one ends and is not empty */
  predicate Chained(spans: seq<Span>) {
    && (forall k :: 0 <= k < |spans| ==> spans[k].start < spans[k].end)
    && (forall k :: 0 < k < |spans| ==> spans[k - 1].end <= spans[k].start)
  }

  lemma GlobalMatchesChained(m: Matcher, n: nat, from: nat, spans: seq<Span>)
    requires Advances(m, n) && GlobalMatches(m, n, from, spans)
    ensures Chained(spans)
  {
    forall k | 0 <= k < |spans|
      ensures spans[k].start < spans[k].end
    {
      assert Resume(from, spans, k) <= spans[k].start;
      assert m(spans[k].start) == Some(spans[k].end);
    }
    forall k | 0 < k < |spans|
      ensures spans[k - 1].end <= spans[k].start
    {
      assert Resume(from, spans, k) <= spans[k].start;
    }
  }

  lemma {:induction false} ChainedOrdered(spans: seq<Span>, j: nat, k: nat)
    requires Chained(spans) && j < k < |spans|
    ensures spans[j].end <= spans[k].start
    decreases k - j
  {
    if j + 1 < k {
      ChainedOrdered(spans, j + 1, k);
      assert spans[j + 1].start < spans[j + 1].end;
    }
  }

  /** `s.match(re)` with the `g` flag, as spans */
  function Scan(s: string, pat: Pattern): (spans: seq<Span>)
    ensures GlobalMatches(At(s, pat), |s|, 0, spans)
    ensures forall k :: 0 <= k < |spans| ==> MatchAt(s, pat, spans[k].start) == Some(spans[k].end)
  {
    ScanWith(At(s, pat), |s|, 0)
  }

  /** Matches come out in document order and never overlap */
  lemma ScanInDocumentOrder(s: string, pat: Pattern)
    ensures var spans := Scan(s, pat);
      forall j, k :: 0 <= j < k < |spans| ==> spans[j].start < spans[j].end <= spans[k].start
  {
    var spans := Scan(s, pat);
    forall j, k | 0 <= j < k < |spans|
      ensures spans[j].start < spans[j].end <= spans[k].start
    {
      GlobalMatchesChained(At(s, pat), |s|, 0, spans);
      ChainedOrdered(spans, j, k);
    }
  }

  /** The search finds nothing exactly when the expression matches nowhere */
  lemma NoMatchMeansEmpty(s: string, pat: Pattern)
    ensures Scan(s, pat) == [] <==> forall p :: 0 <= p < |s| ==> MatchAt(s, pat, p).None?
  {
    var m := At(s, pat);
    if forall p :: 0 <= p < |s| ==> MatchAt(s, pat, p).None? {
      assert NoMatchIn(m, 0, |s|);
      assert GlobalMatches(m, |s|, 0, []);
      GlobalMatchesUnique(m, |s|, 0, []);
    } else {
      var p :| 0 <= p < |s| && MatchAt(s, pat, p).Some?;
      assert m(p).Some?;
    }
  }

  // ----- the matched text -----

  predicate SpansWithin(s: string, spans: seq<Span>) {
    forall k :: 0 <= k < |spans| ==> spans[k].start <= spans[k].end <= |s|
  }

  function Texts(s: string, spans: seq<Span>): (r: seq<string>)
    requires SpansWithin(s, spans)
    ensures |r| == |spans|
    ensures forall k :: 0 <= k < |spans| ==> r[k] == s[spans[k].start..spans[k].end]
  {
    seq(|spans|, k requires 0 <= k < |spans| => s[spans[k].start..spans[k].end])
  }

  /** `(s.match(re) || [])`: the matched substrings in document order */
  function Matches(s: string, pat: Pattern): (r: seq<string>)
    ensures var spans := Scan(s, pat);
      |r| == |spans| && forall k :: 0 <= k < |r| ==>
        spans[k].start < spans[k].end <= |s| && r[k] == s[spans[k].start..spans[k].end]
  {
    var spans := Scan(s, pat);
    assert SpansWithin(s, spans) by {
      forall k | 0 <= k < |spans|
        ensures spans[k].start <= spans[k].end <= |s|
      {
        assert MatchAt(s, pat, spans[k].start) == Some(spans[k].end);
      }
    }
    Texts(s, spans)
  }

  // ----- what each of the three expressions matches -----

  /** An input match is "<input", then no '>', then the first '>' */
  lemma InputMatchShape(s: string, i: nat, e: nat)
    requires MatchAt(s, InputTag, i) == Some(e)
    ensures StartsWith(s[i..e], "<input") && s[e - 1] == '>'
    ensures forall k :: i <= k < e - 1 ==> s[k] != '>'
  {
    assert s[i..e][..6] == s[i..i + 6];
    forall k | i <= k < i + 6
      ensures s[k] != '>'
    {
      assert s[k] == "<input"[k - i];
    }
  }

  /** Wherever "<input" is followed somewhere by '>', the expression matches */
  lemma InputMatchFound(s: string, i: nat, g: nat)
    requires OccursAt(s, "<input", i) && i + 6 <= g < |s| && s[g] == '>'
    ensures MatchAt(s, InputTag, i).Some?
  {
  }

  /** A button match ends at the first "</button>" after its opening tag, and
      no line break lies between that tag and the closing one */
  lemma ButtonMatchShape(s: string, i: nat, e: nat)
    requires MatchAt(s, ButtonTag, i) == Some(e)
    ensures FindChar(s, '>', i + 7).Some?
    ensures var g := FindChar(s, '>', i + 7).value;
      && g + 1 + 9 <= e && OccursAt(s, "</button>", e - 9)
      && NoLineBreak(s, g + 1, e - 9)
      && forall k :: g + 1 <= k < e - 9 ==> !OccursAt(s, "</button>", k)
  {
  }

  /** A form match ends at the first "</form>" after its opening tag, line
      breaks included */
  lemma FormMatchShape(s: string, i: nat, e: nat)
    requires MatchAt(s, FormTag, i) == Some(e)
    ensures FindChar(s, '>', i + 5).Some?
    ensures var g := FindChar(s, '>', i + 5).value;
      && g + 1 + 7 <= e && OccursAt(s, "</form>", e - 7)
      && forall k :: g + 1 <= k < e - 7 ==> !OccursAt(s, "</form>", k)
  {
  }

  /** A text with no '<' in it holds no closing tag anywhere inside it */
  lemma NoCloseInside(s: string, close: string, lo: nat, hi: nat)
    requires hi <= |s| && close != [] && close[0] == '<'
    requires forall k :: lo <= k < hi ==> s[k] != '<'
    ensures forall k :: lo <= k < hi ==> !OccursAt(s, close, k)
  {
    forall k | lo <= k < hi
      ensures !OccursAt(s, close, k)
    {
      if k + |close| <= |s| {
        assert s[k..k + |close|][0] == s[k];
      }
    }
  }

  /** A form whose body crosses a line still matches */
  lemma FormSpansLines(body: string)
    requires '<' !in body && '>' !in body
    ensures MatchAt("<form>" + body + "</form>", FormTag, 0) == Some(6 + |body| + 7)
  {
    var s := "<form>" + body + "</form>";
    var e := 6 + |body|;
    assert s[..5] == "<form";
    assert OccursAt(s, FormTag.open, 0);
    assert s[5] == '>';
    assert FindChar(s, '>', 5) == Some(5);
    forall k | 6 <= k < e
      ensures s[k] != '<'
    {
      assert s[k] == body[k - 6];
    }
    NoCloseInside(s, "</form>", 6, e);
    assert s[e..] == "</form>";
    assert OccursAt(s, "</form>", e);
    FindTextFirst(s, "</form>", 6, e);
  }

  /** A button whose body crosses a line is not matched */
  lemma ButtonStopsAtLineBreak(body: string)
    requires '<' !in body && '>' !in body
    requires exists k :: 0 <= k < |body| && IsLineTerminator(body[k])
    ensures MatchAt("<button>" + body + "</button>", ButtonTag, 0).None?
  {
    var s := "<button>" + body + "</button>";
    var e := 8 + |body|;
    assert s[..7] == "<button";
    assert OccursAt(s, ButtonTag.open, 0);
    assert s[7] == '>';
    assert FindChar(s, '>', 7) == Some(7);
    forall k | 8 <= k < e
      ensures s[k] != '<'
    {
      assert s[k] == body[k - 8];
    }
    NoCloseInside(s, "</button>", 8, e);
    assert s[e..] == "</button>";
    assert OccursAt(s, "</button>", e);
    FindTextFirst(s, "</button>", 8, e);
    var k :| 0 <= k < |body| && IsLineTerminator(body[k]);
    assert s[8 + k] == body[k];
    assert !NoLineBreak(s, 8, e);
  }
}

=== FILE: vision_planner.dfy ===
/** The text handling around the vision model in askGPTVisionWhatToDo: the
    two context blocks placed in the prompt (open tabs, recent actions) and the
    clean-up of the model's reply into a decision. The model call itself, the
    screenshot read and the prompt wording are outside the model; JSON.parse is
    the parameter `parse`. */
module VisionPlanner {
  import opened Wrappers
  import opened JsText
  import opened JsonValue
  import opened Fences

  /** One open tab as the caller describes it */
  datatype PageInfo = PageInfo(index: int, url: string, title: string)

  /** One entry of the action history the caller keeps */
  datatype ActionRecord = ActionRecord(
    action: string,
    selector: Option<string>,
    tabIndex: Option<int>,
    timestamp: int)

  // ----- the open-tabs block -----

  /** The listing line for the tab at array position i */
  function TabLine(i: nat, p: PageInfo): string {
    "Tab " + NatToString(i) + ": " + p.title + " (" + p.url + ")"
  }

  function TabLines(pages: seq<PageInfo>): (r: seq<string>)
    ensures |r| == |pages|
    ensures forall i :: 0 <= i < |pages| ==> r[i] == TabLine(i, pages[i])
  {
    seq(|pages|, i requires 0 <= i < |pages| => TabLine(i, pages[i]))
  }

  /** The `pagesInfo` block: one line per tab, joined by newlines */
  function TabListing(pages: seq<PageInfo>): (r: string)
    ensures r == "" <==> pages == []
  {
    var lines := TabLines(pages);
    assert pages != [] ==> lines[0] != "" && Join(lines, "\n")[..|lines[0]|] == lines[0];
    Join(lines, "\n")
  }

  /** The tab number a listing line announces: the digits between "Tab " and ':' */
  function TabNumber(line: string): Option<nat> {
    if !StartsWith(line, "Tab ") then None
    else
      var e := DigitRunEnd(line, 4);
      if 4 < e < |line| && line[e] == ':' then Some(DigitsValue(line[4..e])) else None
  }

  /** Every listing line announces the position it was built from */
  lemma TabLineNumbered(i: nat, p: PageInfo)
    ensures TabNumber(TabLine(i, p)) == Some(i)
  {
    var d := NatToString(i);
    var line := TabLine(i, p);
    assert line == "Tab " + d + (": " + p.title + " (" + p.url + ")");
    assert line[4..4 + |d|] == d;
    assert line[4 + |d|] == ':';
    DigitRunEndOf(line, 4, d);
    NatToStringRoundTrip(i);
  }

  predicate SingleLine(s: string) {
    '\n' !in s
  }

  lemma TabLineSingle(i: nat, p: PageInfo)
    requires SingleLine(p.title) && SingleLine(p.url)
    ensures SingleLine(TabLine(i, p))
  {
    var d := NatToString(i);
    assert !IsDigit('\n');
    assert '\n' !in d;
  }

  /** With single-line titles and URLs the block has exactly one line per
      tab, and line i announces tab i, whatever `index` the caller stored */
  lemma {:induction false} TabListingNumbersByPosition(pages: seq<PageInfo>)
    requires |pages| >= 1
    requires forall i :: 0 <= i < |pages| ==> SingleLine(pages[i].title) && SingleLine(pages[i].url)
    ensures |Split(TabListing(pages), '\n')| == |pages|
    ensures forall i :: 0 <= i < |pages| ==> TabNumber(Split(TabListing(pages), '\n')[i]) == Some(i)
  {
    var lines := TabLines(pages);
    forall i | 0 <= i < |lines|
      ensures '\n' !in lines[i]
    {
      TabLineSingle(i, pages[i]);
    }
    SplitJoin(lines, '\n');
    forall i | 0 <= i < |pages|
      ensures TabNumber(lines[i]) == Some(i)
    {
      TabLineNumbered(i, pages[i]);
    }
  }

  /** The stored `index` of a PageInfo never reaches the listing */
  lemma {:induction false} TabListingIgnoresStoredIndex(pages: seq<PageInfo>, others: seq<PageInfo>)
    requires |pages| == |others|
    requires forall i :: 0 <= i < |pages| ==> pages[i].title == others[i].title && pages[i].url == others[i].url
    ensures TabListing(pages) == TabListing(others)
  {
    assert TabLines(pages) == TabLines(others);
  }

  // ----- the recent-actions block -----

  /** Whether `a.selector` is truthy: present and not empty */
  predicate SelectorShown(a: ActionRecord) {
    a.selector.Some? && a.selector.value != ""
  }

  /** One recent-action line: the action, the quoted selector when it is
      truthy, and the tab whenever one is recorded (tab 0 included) */
  function ActionLine(a: ActionRecord): (r: string)
    ensures StartsWith(r, "- " + a.action)
    ensures a.tabIndex.Some? ==> EndsWith(r, " on tab " + IntToString(a.tabIndex.value))
    ensures !SelectorShown(a) && a.tabIndex.None? ==> r == "- " + a.action
    ensures SelectorShown(a) && a.tabIndex.None? ==> r == "- " + a.action + " \"" + a.selector.value + "\""
    ensures !SelectorShown(a) && a.tabIndex.Some? ==>
      r == "- " + a.action + " on tab " + IntToString(a.tabIndex.value)
    ensures SelectorShown(a) && a.tabIndex.Some? ==>
      r == "- " + a.action + " \"" + a.selector.value + "\"" + " on tab " + IntToString(a.tabIndex.value)
  {
    var head := "- " + a.action;
    var sel := if SelectorShown(a) then " \"" + a.selector.value + "\"" else "";
    var tab := if a.tabIndex.Some? then " on tab " + IntToString(a.tabIndex.value) else "";
    assert (head + sel + tab)[..|head|] == head;
    head + sel + tab
  }

  /** An empty selector is written exactly like a missing one */
  lemma EmptySelectorOmitted(a: ActionRecord)
    ensures ActionLine(a.(selector := Some(""))) == ActionLine(a.(selector := None))
  {
  }

  /** The tab a line reports can be read back from the line's tail */
  lemma ActionLineTabReadable(a: ActionRecord)
    requires a.tabIndex.Some?
    ensures var r := ActionLine(a); var d := IntToString(a.tabIndex.value);
      |d| <= |r| && ParseInt(r[|r| - |d|..]) == a.tabIndex
  {
    var r := ActionLine(a);
    var d := IntToString(a.tabIndex.value);
    var tail := " on tab " + d;
    assert r[|r| - |d|..] == r[|r| - |tail|..][|tail| - |d|..];
    assert tail[|tail| - |d|..] == d;
    IntToStringRoundTrip(a.tabIndex.value);
  }

  function ActionLines(h: seq<ActionRecord>): (r: seq<string>)
    ensures |r| == |h|
    ensures forall i :: 0 <= i < |h| ==> r[i] == ActionLine(h[i])
  {
    seq(|h|, i requires 0 <= i < |h| => ActionLine(h[i]))
  }

  /** The `recentActions` block: the last three history entries, oldest first */
  function RecentActions(h: seq<ActionRecord>): (r: string)
    ensures r == "" <==> h == []
  {
    var lines := ActionLines(LastN(h, 3));
    assert h != [] ==> lines[0] != "" && Join(lines, "\n")[..|lines[0]|] == lines[0];
    Join(lines, "\n")
  }

  /** Entries older than the last three never reach the block */
  lemma {:induction false} RecentActionsForgetOlder(older: seq<ActionRecord>, h: seq<ActionRecord>)
    requires |h| >= 3
    ensures RecentActions(older + h) == RecentActions(h)
  {
    var all := older + h;
    assert LastN(all, 3) == all[|all| - 3..];
    assert all[|all| - 3..] == h[|h| - 3..];
    assert LastN(h, 3) == h[|h| - 3..];
  }

  /** A history of at most three entries is shown whole, in order */
  lemma ShortHistoryShownWhole(h: seq<ActionRecord>)
    requires |h| <= 3
    ensures RecentActions(h) == Join(ActionLines(h), "\n")
  {
  }

  lemma ActionLineSingle(a: ActionRecord)
    requires SingleLine(a.action)
    requires a.selector.Some? ==> SingleLine(a.selector.value)
    ensures SingleLine(ActionLine(a))
  {
    var head := "- " + a.action;
    var sel := if SelectorShown(a) then " \"" + a.selector.value + "\"" else "";
    var tab := if a.tabIndex.Some? then " on tab " + IntToString(a.tabIndex.value) else "";
    if a.tabIndex.Some? {
      NumberSingle(a.tabIndex.value);
    }
    SingleLineConcat(head, sel);
    SingleLineConcat(head + sel, tab);
  }

  /** A decimal integer holds no line break */
  lemma NumberSingle(t: int)
    ensures SingleLine(" on tab " + IntToString(t))
  {
    var n: nat := if t < 0 then -t else t;
    assert !IsDigit('\n');
    assert '\n' !in NatToString(n);
    assert IntToString(t) == if t < 0 then "-" + NatToString(n) else NatToString(n);
  }

  lemma SingleLineConcat(x: string, y: string)
    requires SingleLine(x) && SingleLine(y)
    ensures SingleLine(x + y)
  {
  }

  /** With single-line fields, the block has min(3, |h|) lines and line k is
      the k-th of the last three entries */
  lemma {:induction false} RecentActionsLines(h: seq<ActionRecord>)
    requires |h| >= 1
    requires forall i :: 0 <= i < |h| ==>
      (SingleLine(h[i].action) && (h[i].selector.Some? ==> SingleLine(h[i].selector.value)))
    ensures var lines := Split(RecentActions(h), '\n');
      var n := if |h| < 3 then |h| else 3;
      |lines| == n && forall k :: 0 <= k < n ==> lines[k] == ActionLine(h[|h| - n + k])
  {
    var lines := ActionLines(LastN(h, 3));
    LastLinesSingle(h);
    SplitJoin(lines, '\n');
  }

  /** The lines of the last three entries, each free of line breaks */
  lemma LastLinesSingle(h: seq<ActionRecord>)
    requires forall i :: 0 <= i < |h| ==>
      (SingleLine(h[i].action) && (h[i].selector.Some? ==> SingleLine(h[i].selector.value)))
    ensures var lines := ActionLines(LastN(h, 3));
      var n := if |h| < 3 then |h| else 3;
      |lines| == n && forall k :: 0 <= k < n ==> '\n' !in lines[k] && lines[k] == ActionLine(h[|h| - n + k])
  {
    var n := if |h| < 3 then |h| else 3;
    var last := LastN(h, 3);
    assert |last| == n && last == h[|h| - n..];
    forall k | 0 <= k < n
      ensures '\n' !in ActionLine(last[k]) && last[k] == h[|h| - n + k]
    {
      ActionLineSingle(last[k]);
    }
  }

  // ----- the reply -----

  /** `content?.trim() || '{}'`: a missing, empty or all-whitespace reply becomes "{}" */
  function ReplyOrDefault(content: Option<string>): (r: string)
    ensures r != "" && Trimmed(r)
    ensures content.None? || AllSpace(content.value) ==> r == "{}"
    ensures content.Some? && !AllSpace(content.value) ==> r == Trim(content.value)
  {
    match content
    case None => "{}"
    case Some(c) => var t := Trim(c); if t == "" then "{}" else t
  }

  function LowerAscii(c: char): char {
    if 'A' <= c <= 'Z' then ((c as int) + 32) as char else c
  }

  /** "json" in any letter case starts at position `at` */
  predicate JsonTagAt(s: string, at: nat) {
    at + 4 <= |s|
    && LowerAscii(s[at]) == 'j' && LowerAscii(s[at + 1]) == 's'
    && LowerAscii(s[at + 2]) == 'o' && LowerAscii(s[at + 3]) == 'n'
  }

  /** The length of the text `^```(json)?\n?` matches case-insensitively: 0
      when there is no leading fence, else the fence, a "json" tag if one
      follows, and one newline if one follows that */
  function OpeningFence(s: string): (k: nat)
    ensures k <= |s|
    ensures k == 0 <==> !StartsWith(s, Fence)
    ensures k != 0 ==> k in {3, 4, 7, 8} && s[..3] == Fence
    ensures k == 4 || k == 8 ==> s[k - 1] == '\n'
    ensures k >= 7 ==> JsonTagAt(s, 3)
    ensures StartsWith(s, Fence) && JsonTagAt(s, 3) ==> k >= 7
    ensures k == 3 || k == 7 ==> k == |s| || s[k] != '\n'
  {
    if !StartsWith(s, Fence) then 0
    else
      var afterTag := if JsonTagAt(s, 3) then 7 else 3;
      if afterTag < |s| && s[afterTag] == '\n' then afterTag + 1 else afterTag
  }

  /** The two replace calls, with this planner's opening fence; it differs
      from DomLoginPlanner.StripFences only through `OpeningFence` */
  function StripFences(s: string): (r: string)
    ensures !StartsWith(s, Fence) && !EndsWith(s, Fence) ==> r == s
    ensures !StartsWith(s, Fence) && EndsWith(s, Fence) ==> r == s[..|s| - 3]
  {
    assert !StartsWith(s, Fence) ==> s[0..] == s;
    Unwrap(s, OpeningFence(s))
  }

  /** A reply fenced as ```json (any case) plus a newline is unwrapped exactly */
  lemma StripJsonFence(tag: string, x: string)
    requires |tag| == 4 && JsonTagAt(tag, 0)
    ensures StripFences(Fence + tag + "\n" + x + Fence) == x
  {
    var s := Fence + tag + "\n" + x + Fence;
    assert s[3..7] == tag;
    assert s[7] == '\n';
    assert s[8..] == x + Fence;
  }

  /** ... and so is one with no newline after the tag */
  lemma StripJsonFenceInline(tag: string, x: string)
    requires |tag| == 4 && JsonTagAt(tag, 0)
    requires x == [] || x[0] != '\n'
    ensures StripFences(Fence + tag + x + Fence) == x
  {
    var s := Fence + tag + x + Fence;
    assert s[..3] == Fence;
    assert s[3..7] == tag;
    assert 7 < |s| && s[7] != '\n';
    assert OpeningFence(s) == 7;
    var rest := s[7..];
    assert rest == x + Fence;
    assert rest[|rest| - 3..] == Fence;
    assert rest[..|rest| - 3] == x;
  }

  /** A fence whose tag does not begin with "json" (in any letter case)
      keeps its tag: only the backticks are dropped */
  lemma StripOtherTag(tag: string, x: string)
    requires tag != [] && tag[0] != '\n'
    requires |tag| >= 4 ==> !JsonTagAt(tag, 0)
    ensures StripFences(Fence + tag + "\n" + x + Fence) == tag + "\n" + x
  {
    var s := Fence + tag + "\n" + x + Fence;
    assert s[..3] == Fence;
    assert s[3] == tag[0];
    if |tag| >= 4 {
      assert s[3..7] == tag[..4];
    } else {
      assert s[3 + |tag|] == '\n';
    }
    assert !JsonTagAt(s, 3);
    assert OpeningFence(s) == 3;
    var rest := s[3..];
    assert rest == tag + "\n" + x + Fence;
    assert rest[|rest| - 3..] == Fence;
    assert rest[..|rest| - 3] == tag + "\n" + x;
  }

  /** A longer tag that begins with "json", such as "jsonc", loses those four
      letters and keeps the rest */
  lemma StripJsonPrefixedTag(tag: string, x: string)
    requires |tag| > 4 && JsonTagAt(tag, 0) && tag[4] != '\n'
    ensures StripFences(Fence + tag + "\n" + x + Fence) == tag[4..] + "\n" + x
  {
    var s := Fence + tag + "\n" + x + Fence;
    assert s[..3] == Fence;
    assert s[3..7] == tag[..4];
    assert s[7] == tag[4];
    assert OpeningFence(s) == 7;
    var rest := s[7..];
    assert rest == tag[4..] + "\n" + x + Fence;
    assert rest[|rest| - 3..] == Fence;
    assert rest[..|rest| - 3] == tag[4..] + "\n" + x;
  }

  /** A reply fenced with a bare ``` and a newline is unwrapped exactly */
  lemma StripBareFence(x: string)
    ensures StripFences(Fence + "\n" + x + Fence) == x
  {
    var s := Fence + "\n" + x + Fence;
    assert s[3] == '\n';
    assert s[4..] == x + Fence;
  }

  /** The text handed to JSON.parse */
  function CleanReply(content: Option<string>): (r: string)
    ensures content.None? || AllSpace(content.value) ==> r == "{}"
  {
    BracesUnfenced();
    StripFences(ReplyOrDefault(content))
  }

  lemma BracesUnfenced()
    ensures StripFences("{}") == "{}"
  {
    var s := "{}";
    assert !StartsWith(s, Fence);
    assert s[0..] == s && !EndsWith(s, Fence);
  }

  /** The decision: the parsed reply as it is, with no check of its shape,
      or `{action: 'done'}` when parsing fails; nothing is thrown */
  function Decide(content: Option<string>, parse: Parser): (r: Json)
    ensures r == DoneAction || parse(CleanReply(content)) == Success(r)
  {
    match parse(CleanReply(content))
    case Success(v) => v
    case Failure(_) => DoneAction
  }

  /** Any parse failure becomes the `done` decision */
  lemma ParseFailureMeansDone(content: Option<string>, parse: Parser)
    requires parse(CleanReply(content)).Failure?
    ensures Decide(content, parse) == DoneAction
  {
  }

  /** Any parsed value is returned unchanged, whatever its shape */
  lemma ParsedValueReturned(content: Option<string>, parse: Parser, v: Json)
    requires parse(CleanReply(content)) == Success(v)
    ensures Decide(content, parse) == v
  {
  }

  /** A fenced reply reaches the parser as its inner text */
  lemma FencedReplyUnwrapped(tag: string, x: string)
    requires |tag| == 4 && JsonTagAt(tag, 0)
    ensures CleanReply(Some(Fence + tag + "\n" + x + Fence)) == x
  {
    var s := Fence + tag + "\n" + x + Fence;
    assert s[0] == '`' && s[|s| - 1] == '`';
    assert [] + s + [] == s;
    TrimOfPadded([], s, []);
    StripJsonFence(tag, x);
  }

  /** A missing or blank reply is not turned into `done`: "{}" reaches the
      parser, and a conforming parser's empty object comes back as the decision */
  lemma BlankReplyIsEmptyObject(content: Option<string>, parse: Parser)
    requires content.None? || AllSpace(content.value)
    requires parse("{}") == Success(JObj([]))
    ensures Decide(content, parse) == JObj([])
    ensures Decide(content, parse) != DoneAction
  {
    assert CleanReply(content) == "{}";
  }
}

=== FILE: wrappers.dfy ===
/** Option and Result, the two failure-carrying shapes used throughout the model.
    A JavaScript `undefined` becomes `None`; a thrown error becomes `Failure`. */
module Wrappers {

  datatype Option<+T> = None | Some(value: T) {

    /** The value, or `default` when there is none */
    function GetOr(default: T): T {
      match this
      case Some(v) => v
      case None => default
    }
  }

  datatype Result<+R, +E> = Success(value: R) | Failure(error: E) {

    predicate IsFailure() {
      Failure?
    }

    function PropagateFailure<U>(): Result<U, E>
      requires Failure?
    {
      Failure(error)
    }

    function Extract(): R
      requires Success?
    {
      value
    }
  }
}
